=== FILE: README.md ===
# CLUTCH core in Dafny

A model of the statistical pipeline of CLUTCH. The pipeline turns Statcast
plate-appearance rows into a per-batter "clutch factor": how much better a
batter hits in high-leverage situations than overall. It has four parts.

- **Situational classifier** (`Features`, `prepare_pa_frame`).
  - A row is high leverage when either trigger fires:
    - its leverage value is strictly above 1.5. This trigger counts only when the frame has one of five leverage columns; the first one present, in a fixed priority order, is used.
    - the inning is at least 7 and the score margin is at most 2.
  - A missing or non-numeric field switches its trigger off and never raises an error.
  - The `li_used` flag is the same for every row.
  - Rows without an event label are dropped after classification.
  - The display name is the batter name column, else the player name column, else `"Unknown"`.
- **Rate statistics** (`Metrics`, `woba`, `k_pct`, `ops`). Per-player maps computed over labelled rows:
  - wOBA is the sum of present numerators over the sum of present denominators, or 0;
  - K% is strikeouts over rows;
  - OPS is OBP + SLG built from event-category counts. It is 0 whenever the player has no at-bats, even when OBP exists.
- **Composite score** (`Series`, `ClutchScore`, `zscore`, `compute_clutch_factor`).
  - Each delta is high leverage minus overall. A player missing on one side gets 0.
  - Each delta series is standardised with the population standard deviation. It becomes all zeros when that deviation is 0.
  - The K% delta is negated before standardising.
  - The three z-series are blended with weights 0.50, 0.35 and 0.15.
- **Date-range chunker** (`DataPull`, `_daterange_chunks`). It splits an inclusive range of days into consecutive windows of at most `chunk_days` days.

Other modules:
- `Config` holds the repository's constants as one immutable record, `Config.Default`.
- `Records` holds the closed event vocabulary and the labelled record.
- `Pipeline` wires the parts together as the leaderboard script does. It follows one small example from the raw frame through classification and the rate statistics to the clutch factor.

Modelling conventions:
- Numbers are exact reals. A numeric cell is an `Option<real>`, and `None` stands for a value that is missing or not numeric after coercion.
- A per-player series is a `map<string, real>`.
- Days are integers.
- Dafny has no square root, so each z-score takes its standard deviation `sd` as a parameter. The parameter is tied to the series by `IsPopulationSd`: `sd >= 0` and `sd * sd` equals the population variance.

Two behaviours of the code that differ from what a reader might expect:
- A player with no rows in a subset is absent from that subset's statistic maps. The player is not given 0 there. The 0 appears only in the delta, which fills missing players with 0.
- The composite is `map<string, Option<real>>`. A player absent from one of the three z-series gets `None`, because pandas' index alignment yields NaN there and nothing fills it. In a real run the three deltas share their players (`Pipeline.RunDeltasAligned`), so every player is scored (`Pipeline.EveryPlayerScored`).

## Model

| member | source | states |
|---|---|---|
| Records.ParseEvent | src/metrics.py:31-32 | reading an event label keeps the exact string (`LabelOf` gives it back) and falls into `Other` exactly when the label is outside the named vocabulary, so category tests compare the same strings `ops` and `k_pct` compare |
| Records.ParseLabelOf | src/features.py:58 | the other round trip: a well-formed event read back from its label is itself |
| Features.LeverageColumn | src/features.py:42-46 | no column is chosen iff none of the five candidates is present; otherwise the chosen one is present and every candidate before it in priority order is absent |
| Features.FirstCandidateWins | src/features.py:43-46 | with "LI" present and "li" absent, "LI" is used whatever else is present |
| Features.BatterName | src/features.py:19-25 | the batter name column when present, else the player name column, else "Unknown" |
| Features.Annotate | src/features.py:27-55 | per row: the inning, score and wOBA cells are the input's coerced cells, missing when their column is absent; the leverage value is the chosen column's cell; the flag equals the high-leverage rule on those cells; `li_used` holds iff the frame has a leverage column; without one, no leverage value is read and the flag is the late-and-close proxy |
| Features.Prepare | src/features.py:11-61 | a missing or empty frame gives no rows; otherwise at most as many rows as the input, each with flags that satisfy the rule and a `li_used` equal to whether the frame has a leverage column |
| Features.FlagsSurviveDrop | src/features.py:57-59 | dropping unlabelled rows after classification keeps the flags of every surviving row |
| Features.Classify | src/features.py:37-55 | a labelled row's output is determined by the row and the column set alone: its name, label, leverage value, inning, score and wOBA cells come from that row (missing when the column is absent), and its flag follows the rule on them |
| Features.DropIsPerRow | src/features.py:37-59 | the output is, position by position, the classification of the input rows that carry a label, in order |
| Features.PrepareKeepsLabelledRows | src/features.py:57-59 | on a non-empty frame the output has one row per labelled input row, in order, each classified from itself alone |
| Features.NoLeverageColumnMeansProxyOnly | src/features.py:53-55 | with no candidate column, every row has `li_used` false and a flag exactly equal to the late-and-close proxy |
| Features.LeverageFlagIsPerFrame | src/features.py:48-52 | with any candidate column present, every output row reports `li_used` whatever its own leverage cell holds |
| Features.DefaultBoundaries | src/features.py:38-50 | under the default thresholds, leverage exactly 1.5 does not trigger and 1.51 does; inning 7 with margin 2 triggers; inning 6, or margin 3, does not |
| Features.MissingFieldsNeverTrigger | src/features.py:34-39 | a missing or non-numeric inning or score makes the proxy false, so without a leverage value the row is not high leverage |
| Metrics.CategoriesMatchLabels | src/metrics.py:34-48 | the hit, walk, hit-by-pitch, non-at-bat and strikeout categories and the base values agree with the label lists `ops` tests, in both directions |
| Metrics.SumMinCountIsPresentSum | src/metrics.py:9-10 | a column sum with a minimum count of 1 is missing exactly when no cell is present, and is otherwise the sum of the present cells |
| Metrics.WobaOf | src/metrics.py:8-11 | wOBA is the present-numerator sum over the present-denominator sum, or 0 when that sum is 0 or when all numerators or all denominators are missing |
| Metrics.KPctOf | src/metrics.py:17-20 | K% is strikeouts over rows, 0 for no rows, and always between 0 and 1 |
| Metrics.StrikeoutsAtMostRows | src/metrics.py:17-20 | a group has no more strikeouts than rows |
| Metrics.HitsWithinAtBats | src/metrics.py:34-48 | every hit is an at-bat, so hits are at most at-bats and total bases at most four times at-bats |
| Metrics.OpsOf | src/metrics.py:50-56 | OPS is 0 when there are no at-bats; otherwise it is (H+BB+HBP)/(AB+BB+HBP) + TB/AB; always between 0 and 5 |
| Metrics.OpsBounded | src/metrics.py:50-54 | OBP lies in [0, 1] and SLG in [0, 4] whenever hits and bases are within the at-bat bounds |
| Metrics.WalkTallies | src/metrics.py:35-41 | a group of walks counts each row as a walk and none as a hit, a hit by pitch or an at-bat |
| Metrics.WalksOnlyGiveZeroOps | src/metrics.py:50-56 | a player who only walked has OBP 1 and no SLG, and so an OPS of 0 |
| Metrics.LoneHomeRunOps | src/metrics.py:43-56 | a single home run reaches the OPS ceiling of 5 |
| Metrics.RowsOf | src/metrics.py:8 | a player's group holds only that player's rows, drawn from the input |
| Metrics.Woba | src/metrics.py:8-11 | the wOBA map is keyed by exactly the players with a row (empty for no rows), each value the wOBA of that player's group |
| Metrics.KPct | src/metrics.py:17-20 | the K% map is keyed by exactly the players with a row, each value the K% of that player's group |
| Metrics.Ops | src/metrics.py:29-56 | the OPS map is keyed by exactly the players with a row, each value the OPS of that player's group |
| Metrics.OtherPlayersDoNotMatter | src/metrics.py:8 | inserting rows of other players anywhere in the input changes none of a player's three statistics |
| Metrics.PlayerStatsIgnoreOrder | src/metrics.py:9-20 | a group's statistics depend only on the multiset of its rows |
| Metrics.StatsIgnoreRowOrder | src/metrics.py:4-56 | any reordering of the input rows gives the same three maps |
| Series.Negate | src/clutch_score.py:29 | negation keeps the players and flips every value |
| Series.Shift | src/clutch_score.py:10 | a shift keeps the players and adds the constant to every value |
| Series.MeanAffine | src/clutch_score.py:10 | the mean of an affine image of a non-empty series is the same affine image of its mean |
| Series.VarianceAffine | src/clutch_score.py:7 | the population variance of `a·x + b` is `a²` times the variance of `x` |
| Series.VarianceNegate | src/clutch_score.py:29 | negating a series leaves its population variance unchanged |
| Series.VarianceShift | src/clutch_score.py:10 | shifting a series leaves its population variance unchanged |
| Series.VarianceNonNegative | src/clutch_score.py:7 | the population variance is never negative, so a standard deviation exists |
| Series.VarianceZeroIffConstant | src/clutch_score.py:7-8 | a non-empty series has variance 0 iff all its values are equal |
| Series.SinglePlayerVarianceZero | src/clutch_score.py:7-8 | a one-player series has variance 0 |
| ClutchScore.ZScore | src/clutch_score.py:5-10 | the z-scores cover the same players, and are all 0 when the standard deviation is 0 |
| ClutchScore.ZScoreIsAffine | src/clutch_score.py:10 | when the standard deviation is not 0, the z-scores are exactly the series mapped by x to (x - mean) / sd, written as an affine map with slope 1/sd and offset -mean/sd |
| ClutchScore.SdZeroIffVarianceZero | src/clutch_score.py:7-8 | the degenerate branch is taken exactly when the population variance is 0 |
| ClutchScore.ZScoreMeanZero | src/clutch_score.py:10 | for a non-degenerate series the z-scores have mean 0 |
| ClutchScore.ZScoreUnitVariance | src/clutch_score.py:7-10 | for a non-degenerate series the z-scores have population variance 1 |
| ClutchScore.ZScoreZeroIffConstant | src/clutch_score.py:7-9 | the z-scores of a non-empty series are all 0 iff its values are all equal |
| ClutchScore.SinglePlayerZScoreZero | src/clutch_score.py:7-9 | a single player standardises to 0 |
| ClutchScore.ZScoreNegate | src/clutch_score.py:29 | negating a series keeps its standard deviation and negates every z-score, which is the K% inversion |
| ClutchScore.ZScoreShift | src/clutch_score.py:10 | adding a constant to every delta keeps the standard deviation and the z-scores |
| ClutchScore.Delta | src/clutch_score.py:23-25 | the delta covers the players of either side: high minus all when a player is on both, else 0 |
| ClutchScore.DeltaAntisymmetric | src/clutch_score.py:19 | swapping the high and overall sides negates every delta |
| ClutchScore.MissingFromHighIsZero | src/clutch_score.py:23-25 | a player with no high-leverage value gets delta 0 |
| ClutchScore.Blend | src/clutch_score.py:31-35 | the blend covers the players of any z-series; it has a value iff the player is in all three, and that value is the weighted sum |
| ClutchScore.ClutchFactor | src/clutch_score.py:27-35 | on players in all three deltas, the score is the weighted sum of z(wOBA delta), z(OPS delta) and z(−K% delta); the map covers the union of the players |
| ClutchScore.DefaultWeightsAverage | src/config.py:16-20 | the default weights sum to 1, so equal z-scores blend to that same value |
| ClutchScore.AlignedDeltasAllScored | src/clutch_score.py:31-35 | when the three deltas cover the same players, every player gets a score and no one else does |
| ClutchScore.ConstantDeltasScoreZero | src/clutch_score.py:8-9 | three constant delta series over the same players give every one of those players a composite of 0 |
| ClutchScore.SinglePlayerScoresZero | src/clutch_score.py:8-9 | a single-player population scores exactly 0 |
| DataPull.Chunks | src/data_pull.py:12-17 | defined for every chunk length when the range is empty; no windows iff start > end; the first window starts at start and the last ends at end; each window lies in the range and spans at most `chunk_days` days |
| DataPull.DateRangeChunks | src/data_pull.py:10-17 | the loop yields exactly the windows of `Chunks`, in order |
| DataPull.NoProgressWithoutPositiveChunk | src/data_pull.py:15-17 | with `chunk_days <= 0` the next start does not pass the current one, so on integer days the loop would not end |
| DataPull.ChunksCover | src/data_pull.py:13-17 | every day of the range lies in some window |
| DataPull.ChunksContiguous | src/data_pull.py:15-17 | each window but the last is exactly `chunk_days` long, and the next starts the day after it ends |
| DataPull.ChunksOrdered | src/data_pull.py:13-17 | windows are disjoint and strictly increasing |
| DataPull.ChunkCount | src/data_pull.py:13-17 | the number of windows is the range length divided by `chunk_days`, rounded up |
| DataPull.EmptyRangeNoChunks | src/data_pull.py:12-13 | an empty range yields no windows, whatever the chunk length, including 0 or less |
| DataPull.DefaultChunking | src/data_pull.py:5 | with the default length of 7, days 1-14 split into two weeks and days 1-10 into a week and three days |
| Pipeline.HighLeverageRows | src/make_leaderboard.py:37 | a row is in the high-leverage subset iff it is an input row flagged high leverage, and the subset is no longer than the input |
| Pipeline.HighLeverageMultiplicity | src/make_leaderboard.py:37 | the subset keeps every copy of every flagged row and no copy of any other row |
| Pipeline.HighPlayersAmongAll | src/make_leaderboard.py:36-37 | every player of the high-leverage subset is a player of the whole input |
| Pipeline.RunDeltasAligned | src/make_leaderboard.py:42-51 | in a run the three delta series cover exactly the players with a row |
| Pipeline.EveryPlayerScored | src/make_leaderboard.py:42-51 | in a run every player with a row gets a clutch factor, and no one else does |
| Pipeline.EmptyInputEmptyOutput | src/features.py:11-12 | a missing or empty frame gives no rows, empty statistics and an empty score map |
| Pipeline.ScenarioClassified | src/features.py:37-55 | a late, close home run is high leverage and an early strikeout is not, in a frame without a leverage column |
| Pipeline.HomeRunAloneStatistics | src/metrics.py:4-56 | a lone home run has OPS 5 and K% 0; with a wOBA denominator of 1 its wOBA is its own wOBA value |
| Pipeline.HomeRunAndStrikeoutStatistics | src/metrics.py:4-56 | a home run and a strikeout give OPS 2.5 and K% 0.5; with wOBA denominators of 1 their wOBA is the average of the two wOBA values |
| Pipeline.ScenarioStatistics | src/make_leaderboard.py:36-49 | on that example the high-leverage subset is the home run alone, with OPS 5 against 2.5, K% 0 against 0.5 and wOBA 2 against 1 |
| Pipeline.ScenarioPrepared | src/features.py:11-61 | preparing the example's raw frame, which has no leverage column, yields exactly its two classified rows, in order |
| Pipeline.SingleBatterRunScoresZero | src/make_leaderboard.py:42-51 | in a run with one batter every delta series has standard deviation 0, and that batter's clutch factor is exactly 0 and nobody else has one |
| Pipeline.ScenarioScores | src/make_leaderboard.py:42-51 | the example's one batter, "A", gets a clutch factor of exactly 0 |

## Left out

- `pull_statcast_pa` (src/data_pull.py:19-33): a network call through pybaseball followed by concatenation.
- ISO date strings: `_daterange_chunks` parses and formats calendar dates; the model works on integer day numbers.
- DataPull.Chunks: requires `chunk_days >= 1` on a non-empty range. `_daterange_chunks` does not check this. On a non-empty range with 0, its loop yields the same empty window forever (`DataPull.NoProgressWithoutPositiveChunk`). With a negative value it yields windows that end before they start, walking backwards until the date arithmetic raises OverflowError. On integer days neither case has a finite result to model. An empty range is accepted with any chunk length.
- DataPull.DateRangeChunks: requires `chunk_days >= 1` on a non-empty range, for the same reason.
- Floating point: the model uses exact reals. NaN is modelled only as a missing `Option` value. Rounding in the mean and the standard deviation, and an `sd == 0` test that misfires on nearly equal floats, are not modelled.
- ClutchScore.ZScore: the square root in `std` is not computed. The standard deviation is a parameter, tied to the series by `IsPopulationSd`. The NaN standard deviation of an empty series is not modelled separately: an empty series has variance 0 here, and both routes give an empty result.
- pandas details:
  - `groupby(dropna=False)` keys for missing names;
  - `astype(str)` turning a missing player name into "nan";
  - dtype coercion beyond "numeric or missing";
  - the unreachable inner branch at src/features.py:19-21.
- Columns other than the ones the core reads: the model's rows carry only those fields.
- src/make_leaderboard.py beyond the wiring in `Pipeline`: argument parsing, directories, the minimum-PA filter (`minHighLevPa`, `minAllPa` are kept in `Config.Default` but used by nothing), the sort, CSV export and console output.
- `DEFAULT_START_DATE` and `DEFAULT_END_DATE` (src/config.py:1-2): date strings used only by the leaderboard script.

=== FILE: clutch_score.dfy ===
/** The composite clutch score: per-metric deltas (high leverage minus all),
    population z-scores of the deltas, the strikeout delta negated so that a
    lower strikeout rate scores higher, and a weighted blend of the three. */
module ClutchScore {
  import opened Wrappers
  import opened Series
  import Config

  // ---------------------------------------------------------------------
  // Z-scores

  /** `sd` is the population standard deviation of `m` (the square root of
      its population variance, taken as a parameter). */
  ghost predicate IsPopulationSd(m: Series, sd: real) {
    sd >= 0.0 && Square(sd) == Variance(m)
  }

  /** Standardise a series: all zeros, on the same players, when the standard
      deviation is 0; otherwise every value minus the mean, over `sd`. */
  ghost function ZScore(m: Series, sd: real): (z: Series)
    requires IsPopulationSd(m, sd)
    ensures z.Keys == m.Keys
    ensures sd == 0.0 ==> forall p :: p in z ==> z[p] == 0.0
  {
    map p | p in m :: Standardise(m[p], Mean(m), sd)
  }

  /** One value's z-score: 0 when the standard deviation is 0. */
  function Standardise(x: real, mu: real, sd: real): real {
    if sd == 0.0 then 0.0 else (x - mu) / sd
  }

  lemma StandardiseNegate(x: real, mu: real, sd: real)
    ensures Standardise(-x, -mu, sd) == -Standardise(x, mu, sd)
  {
  }

  lemma StandardiseShift(x: real, mu: real, c: real, sd: real)
    ensures Standardise(x + c, mu + c, sd) == Standardise(x, mu, sd)
  {
  }

  /** A standard deviation of 0 is exactly a variance of 0. */
  lemma SdZeroIffVarianceZero(m: Series, sd: real)
    requires IsPopulationSd(m, sd)
    ensures sd == 0.0 <==> Variance(m) == 0.0
  {
    if sd != 0.0 {
      SquarePositive(sd);
    }
  }

  lemma StandardiseAffine(x: real, mu: real, sd: real)
    requires sd != 0.0
    ensures AffineAt(x, (x - mu) / sd, 1.0 / sd, -mu / sd)
  {
  }

  lemma StandardisedMean(mu: real, nu: real, sd: real)
    requires sd != 0.0 && AffineAt(mu, nu, 1.0 / sd, -mu / sd)
    ensures nu == 0.0
  {
  }

  lemma StandardisedVariance(v: real, w: real, sd: real)
    requires sd != 0.0 && Square(sd) == v && AffineAt(v, w, Square(1.0 / sd), 0.0)
    ensures w == 1.0
  {
  }

  /** For a non-degenerate series the z-scores are an affine image of it:
      the map x |-> x / sd - mean / sd. */
  lemma ZScoreIsAffine(m: Series, sd: real)
    requires IsPopulationSd(m, sd) && sd != 0.0
    ensures IsAffineImage(m, ZScore(m, sd), 1.0 / sd, -Mean(m) / sd)
    ensures ZScore(m, sd) == Affine(m, 1.0 / sd, -Mean(m) / sd)
  {
    var z := ZScore(m, sd);
    var a := Affine(m, 1.0 / sd, -Mean(m) / sd);
    forall p | p in m ensures AffineAt(m[p], z[p], 1.0 / sd, -Mean(m) / sd) {
      StandardiseAffine(m[p], Mean(m), sd);
    }
    SameOnEveryPlayer(z, a);
  }

  /** The z-scores of a non-degenerate series have mean 0. */
  lemma ZScoreMeanZero(m: Series, sd: real)
    requires IsPopulationSd(m, sd) && sd != 0.0
    ensures Mean(ZScore(m, sd)) == 0.0
  {
    SdZeroIffVarianceZero(m, sd);
    var z := ZScore(m, sd);
    ZScoreIsAffine(m, sd);
    assert |m| > 0;
    MeanAffine(m, z, 1.0 / sd, -Mean(m) / sd);
    StandardisedMean(Mean(m), Mean(z), sd);
  }

  /** With `sd` the population standard deviation, the z-scores of a
      non-degenerate series have population variance 1. */
  lemma ZScoreUnitVariance(m: Series, sd: real)
    requires IsPopulationSd(m, sd) && sd != 0.0
    ensures Variance(ZScore(m, sd)) == 1.0
  {
    var z := ZScore(m, sd);
    ZScoreIsAffine(m, sd);
    VarianceAffine(m, z, 1.0 / sd, -Mean(m) / sd);
    StandardisedVariance(Variance(m), Variance(z), sd);
  }

  /** The z-scores are all 0 exactly when the series is constant (a single
      player, or every player with the same value). */
  lemma ZScoreZeroIffConstant(m: Series, sd: real)
    requires IsPopulationSd(m, sd) && |m| > 0
    ensures (forall p :: p in m ==> ZScore(m, sd)[p] == 0.0)
        <==> (forall p, q :: p in m && q in m ==> m[p] == m[q])
  {
    SdZeroIffVarianceZero(m, sd);
    VarianceZeroIffConstant(m);
    var z := ZScore(m, sd);
    if sd != 0.0 && forall p :: p in m ==> z[p] == 0.0 {
      forall p | p in m ensures m[p] == Mean(m) {
        StandardiseAffine(m[p], Mean(m), sd);
        ZeroStandardised(m[p], Mean(m), sd);
      }
    }
  }

  lemma ZeroStandardised(x: real, mu: real, sd: real)
    requires sd != 0.0 && (x - mu) / sd == 0.0
    ensures x == mu
  {
  }

  /** A single player always standardises to 0. */
  lemma SinglePlayerZScoreZero(m: Series, sd: real)
    requires IsPopulationSd(m, sd) && |m| == 1
    ensures forall p :: p in m ==> ZScore(m, sd)[p] == 0.0
  {
    SinglePlayerVarianceZero(m);
    SdZeroIffVarianceZero(m, sd);
  }

  /** Negation commutes with standardisation: the standard deviation is
      unchanged and every z-score flips sign. This is how the strikeout delta
      is inverted. */
  lemma ZScoreNegate(m: Series, sd: real)
    requires IsPopulationSd(m, sd)
    ensures IsPopulationSd(Negate(m), sd)
    ensures ZScore(Negate(m), sd) == Negate(ZScore(m, sd))
  {
    VarianceNegate(m);
    MeanNegate(m);
    var r := Negate(m);
    var z, zr := ZScore(m, sd), ZScore(r, sd);
    forall p | p in r ensures zr[p] == -z[p] {
      StandardiseNegate(m[p], Mean(m), sd);
    }
    assert zr == Negate(z);
  }

  /** Adding the same constant to every value leaves the z-scores unchanged. */
  lemma ZScoreShift(m: Series, c: real, sd: real)
    requires IsPopulationSd(m, sd)
    ensures IsPopulationSd(Shift(m, c), sd)
    ensures ZScore(Shift(m, c), sd) == ZScore(m, sd)
  {
    ShiftKeepsSd(m, c, sd);
    ShiftedZScores(m, c, sd);
  }

  lemma ShiftKeepsSd(m: Series, c: real, sd: real)
    requires IsPopulationSd(m, sd)
    ensures IsPopulationSd(Shift(m, c), sd)
  {
    VarianceShift(m, c);
  }

  lemma ShiftedZScores(m: Series, c: real, sd: real)
    requires IsPopulationSd(m, sd) && IsPopulationSd(Shift(m, c), sd)
    ensures ZScore(Shift(m, c), sd) == ZScore(m, sd)
  {
    var r := Shift(m, c);
    var z, zr := ZScore(m, sd), ZScore(r, sd);
    if |m| > 0 {
      MeanShift(m, c);
      assert Mean(r) == Mean(m) + c;
      forall p | p in r ensures zr[p] == z[p] {
        assert r[p] == m[p] + c;
        StandardiseShift(m[p], Mean(m), c, sd);
      }
    }
    SameOnEveryPlayer(zr, z);
  }

  // ---------------------------------------------------------------------
  // Deltas and the composite

  /** High-leverage value minus overall value, on every player of either
      side; a player missing from one side gets 0. */
  function Delta(high: Series, all: Series): (d: Series)
    ensures d.Keys == high.Keys + all.Keys
    ensures forall p :: p in high && p in all ==> d[p] == high[p] - all[p]
    ensures forall p :: p in d && !(p in high && p in all) ==> d[p] == 0.0
  {
    map p | p in high.Keys + all.Keys :: if p in high && p in all then high[p] - all[p] else 0.0
  }

  /** Swapping the two sides negates every delta. */
  lemma DeltaAntisymmetric(high: Series, all: Series)
    ensures Delta(all, high) == Negate(Delta(high, all))
  {
  }

  /** A player only in the overall series gets delta 0. */
  lemma MissingFromHighIsZero(high: Series, all: Series, p: string)
    requires p in all && p !in high
    ensures p in Delta(high, all) && Delta(high, all)[p] == 0.0
  {
  }

  function Weighted(w: Config.Weights, zWoba: real, zOps: real, zK: real): real {
    w.woba * zWoba + w.ops * zOps + w.kPct * zK
  }

  /** The weighted blend, on every player of any of the three z-series; a
      player absent from one of them has no score (pandas alignment gives
      NaN there). */
  function Blend(w: Config.Weights, zWoba: Series, zOps: Series, zK: Series): (c: map<string, Option<real>>)
    ensures c.Keys == zWoba.Keys + zOps.Keys + zK.Keys
    ensures forall p :: p in c ==> (c[p].Some? <==> p in zWoba && p in zOps && p in zK)
    ensures forall p :: p in zWoba && p in zOps && p in zK ==>
      c[p] == Some(Weighted(w, zWoba[p], zOps[p], zK[p]))
  {
    map p | p in zWoba.Keys + zOps.Keys + zK.Keys ::
      if p in zWoba && p in zOps && p in zK
      then Some(Weighted(w, zWoba[p], zOps[p], zK[p]))
      else None
  }

  /** The standard deviations of the wOBA delta, the OPS delta and the
      negated K% delta. */
  ghost predicate SdsFit(d: Deltas, sdWoba: real, sdOps: real, sdK: real) {
    IsPopulationSd(d.woba, sdWoba) && IsPopulationSd(d.ops, sdOps) && IsPopulationSd(Negate(d.k), sdK)
  }

  datatype Deltas = Deltas(woba: Series, ops: Series, k: Series)

  function DeltasOf(wobaAll: Series, wobaHigh: Series, opsAll: Series, opsHigh: Series,
                    kAll: Series, kHigh: Series): Deltas
  {
    Deltas(Delta(wobaHigh, wobaAll), Delta(opsHigh, opsAll), Delta(kHigh, kAll))
  }

  /** The clutch factor of every player: the weighted blend of the z-scores
      of the wOBA delta, the OPS delta and the negated K% delta. */
  ghost function ClutchFactor(w: Config.Weights, d: Deltas, sdWoba: real, sdOps: real, sdK: real)
    : (c: map<string, Option<real>>)
    requires SdsFit(d, sdWoba, sdOps, sdK)
    ensures c.Keys == d.woba.Keys + d.ops.Keys + d.k.Keys
    ensures forall p :: p in d.woba && p in d.ops && p in d.k ==>
      c[p] == Some(Weighted(w, ZScore(d.woba, sdWoba)[p], ZScore(d.ops, sdOps)[p], ZScore(Negate(d.k), sdK)[p]))
  {
    Blend(w, ZScore(d.woba, sdWoba), ZScore(d.ops, sdOps), ZScore(Negate(d.k), sdK))
  }

  /** The default weights sum to 1, so a player with the same z-score on all
      three metrics gets that z-score as composite. */
  lemma DefaultWeightsAverage(z: real)
    ensures Weighted(Config.Default.weights, z, z, z) == z
  {
  }

  /** When the three delta series cover the same players, every player gets a
      score. */
  lemma AlignedDeltasAllScored(w: Config.Weights, d: Deltas, sdWoba: real, sdOps: real, sdK: real)
    requires SdsFit(d, sdWoba, sdOps, sdK)
    requires d.woba.Keys == d.ops.Keys == d.k.Keys
    ensures ClutchFactor(w, d, sdWoba, sdOps, sdK).Keys == d.woba.Keys
    ensures forall p :: p in d.woba ==> ClutchFactor(w, d, sdWoba, sdOps, sdK)[p].Some?
  {
  }

  /** Three constant delta series over the same players (a single player is
      the smallest case) give every player a clutch factor of 0. */
  lemma ConstantDeltasScoreZero(w: Config.Weights, d: Deltas, sdWoba: real, sdOps: real, sdK: real)
    requires SdsFit(d, sdWoba, sdOps, sdK)
    requires d.woba.Keys == d.ops.Keys == d.k.Keys
    requires forall p, q :: p in d.woba && q in d.woba ==> d.woba[p] == d.woba[q]
    requires forall p, q :: p in d.ops && q in d.ops ==> d.ops[p] == d.ops[q]
    requires forall p, q :: p in d.k && q in d.k ==> d.k[p] == d.k[q]
    ensures forall p :: p in d.woba ==> ClutchFactor(w, d, sdWoba, sdOps, sdK)[p] == Some(0.0)
  {
    ConstantZScoresZero(d.woba, sdWoba);
    ConstantZScoresZero(d.ops, sdOps);
    ConstantZScoresZero(Negate(d.k), sdK);
    var zw, zo, zk := ZScore(d.woba, sdWoba), ZScore(d.ops, sdOps), ZScore(Negate(d.k), sdK);
    forall p | p in d.woba ensures ClutchFactor(w, d, sdWoba, sdOps, sdK)[p] == Some(0.0) {
      assert zw[p] == 0.0 && zo[p] == 0.0 && zk[p] == 0.0;
      assert Weighted(w, 0.0, 0.0, 0.0) == 0.0;
    }
  }

  lemma ConstantZScoresZero(m: Series, sd: real)
    requires IsPopulationSd(m, sd)
    requires forall p, q :: p in m && q in m ==> m[p] == m[q]
    ensures forall p :: p in m ==> ZScore(m, sd)[p] == 0.0
  {
    if |m| > 0 {
      ZScoreZeroIffConstant(m, sd);
    }
  }

  /** The single-player population: every delta standardises to 0. */
  lemma SinglePlayerScoresZero(w: Config.Weights, d: Deltas, sdWoba: real, sdOps: real, sdK: real, p: string)
    requires SdsFit(d, sdWoba, sdOps, sdK)
    requires d.woba.Keys == d.ops.Keys == d.k.Keys == {p}
    ensures ClutchFactor(w, d, sdWoba, sdOps, sdK) == map[p := Some(0.0)]
  {
    SingletonIsConstant(d.woba, p);
    SingletonIsConstant(d.ops, p);
    SingletonIsConstant(d.k, p);
    ConstantDeltasScoreZero(w, d, sdWoba, sdOps, sdK);
    AlignedDeltasAllScored(w, d, sdWoba, sdOps, sdK);
    SingletonScores(ClutchFactor(w, d, sdWoba, sdOps, sdK), p, Some(0.0));
  }

  lemma SingletonScores(c: map<string, Option<real>>, p: string, v: Option<real>)
    requires c.Keys == {p} && c[p] == v
    ensures c == map[p := v]
  {
  }

  lemma SingletonIsConstant(m: Series, p: string)
    requires m.Keys == {p}
    ensures forall a, b :: a in m && b in m ==> m[a] == m[b]
  {
  }
}

=== FILE: config.dfy ===
/** Configuration of the clutch pipeline: classification thresholds,
    minimum sample sizes and composite weights, as one immutable value. */
module Config {

  /** Weights of the three standardised deltas in the composite score. */
  datatype Weights = Weights(woba: real, ops: real, kPct: real)

  datatype Config = Config(
    liThreshold: real,   // leverage strictly above this is high leverage
    lateInning: real,    // innings at or after this count as late
    closeRuns: real,     // score margins at or below this count as close
    minHighLevPa: nat,   // leaderboard filter, used outside the core
    minAllPa: nat,       // leaderboard filter, used outside the core
    weights: Weights)

  /** The repository's defaults. */
  const Default: Config := Config(1.5, 7.0, 2.0, 50, 250, Weights(0.50, 0.35, 0.15))
}

=== FILE: data_pull.dfy ===
/** Splitting an inclusive range of days into consecutive request windows.
    Days are integer ordinals; the calendar arithmetic and the ISO date
    strings of `_daterange_chunks` are not modelled. */
module DataPull {

  /** The chunk length used when the caller gives none. */
  const DefaultChunkDays: int := 7

  /** An inclusive window of days. */
  datatype Chunk = Chunk(first: int, last: int)

  function Min(a: int, b: int): int {
    if a <= b then a else b
  }

  /** The last day of the window that starts at `cur`: `chunkDays` days on,
      clipped to the end of the range. */
  function ChunkEnd(cur: int, end: int, chunkDays: int): int {
    Min(cur + chunkDays - 1, end)
  }

  /** The windows the generator yields, in order. */
  function Chunks(start: int, end: int, chunkDays: int): (cs: seq<Chunk>)
    requires start > end || chunkDays >= 1
    ensures |cs| == 0 <==> start > end
    ensures |cs| > 0 ==> cs[0].first == start && cs[|cs| - 1].last == end
    ensures forall i :: 0 <= i < |cs| ==> WithinRange(cs[i], start, end, chunkDays)
    decreases if start <= end then end - start + 1 else 0
  {
    if start > end then []
    else
      var e := ChunkEnd(start, end, chunkDays);
      var rest := Chunks(e + 1, end, chunkDays);
      var cs := [Chunk(start, e)] + rest;
      assert forall i :: 1 <= i < |cs| ==> cs[i] == rest[i - 1];
      cs
  }

  /** A window inside `[start, end]` spanning at most `chunkDays` days. */
  predicate WithinRange(c: Chunk, start: int, end: int, chunkDays: int) {
    start <= c.first <= c.last <= end && c.last - c.first < chunkDays
  }

  /** The loop itself: one window per iteration, the next one starting the
      day after the previous one ended. */
  method DateRangeChunks(start: int, end: int, chunkDays: int) returns (cs: seq<Chunk>)
    requires start > end || chunkDays >= 1
    ensures cs == Chunks(start, end, chunkDays)
  {
    cs := [];
    var cur := start;
    while cur <= end
      invariant start <= cur <= end + 1 || (cur == start && start > end)
      invariant cur <= end ==> chunkDays >= 1
      invariant cs + Chunks(cur, end, chunkDays) == Chunks(start, end, chunkDays)
      decreases end - cur + 1
    {
      var chunkEnd := ChunkEnd(cur, end, chunkDays);
      var rest := Chunks(chunkEnd + 1, end, chunkDays);
      assert Chunks(cur, end, chunkDays) == [Chunk(cur, chunkEnd)] + rest;
      assert cs + [Chunk(cur, chunkEnd)] + rest == cs + ([Chunk(cur, chunkEnd)] + rest);
      cs := cs + [Chunk(cur, chunkEnd)];
      cur := chunkEnd + 1;
    }
  }

  /** With a chunk length of 0 or less the next window of a non-empty range
      would not start after the current one, so on unbounded integer days
      the loop would never end (on calendar dates a negative length walks
      backwards until the date arithmetic overflows); this is why
      `chunkDays >= 1` is required above unless the range is empty. */
  lemma NoProgressWithoutPositiveChunk(cur: int, end: int, chunkDays: int)
    requires chunkDays <= 0 && cur <= end
    ensures ChunkEnd(cur, end, chunkDays) + 1 <= cur
  {
  }

  /** With the default chunk length, a fortnight splits into two weeks and
      a ten-day range into a week and three days. */
  lemma DefaultChunking()
    ensures Chunks(1, 14, DefaultChunkDays) == [Chunk(1, 7), Chunk(8, 14)]
    ensures Chunks(1, 10, DefaultChunkDays) == [Chunk(1, 7), Chunk(8, 10)]
  {
    assert Chunks(15, 14, DefaultChunkDays) == [];
    assert Chunks(11, 10, DefaultChunkDays) == [];
  }

  /** An empty range yields no windows, whatever the chunk length. */
  lemma EmptyRangeNoChunks(start: int, end: int, chunkDays: int)
    requires start > end
    ensures Chunks(start, end, chunkDays) == []
  {
  }

  predicate Contains(c: Chunk, day: int) {
    c.first <= day <= c.last
  }

  /** Every day of the range lies in some window. */
  lemma {:induction false} ChunksCover(start: int, end: int, chunkDays: int, day: int)
    requires chunkDays >= 1 && start <= day <= end
    ensures exists i :: 0 <= i < |Chunks(start, end, chunkDays)| && Contains(Chunks(start, end, chunkDays)[i], day)
    decreases end - start
  {
    var cs := Chunks(start, end, chunkDays);
    var e := ChunkEnd(start, end, chunkDays);
    if day > e {
      ChunksCover(e + 1, end, chunkDays, day);
      var rest := Chunks(e + 1, end, chunkDays);
      var j :| 0 <= j < |rest| && Contains(rest[j], day);
      assert cs[j + 1] == rest[j];
    } else {
      assert Contains(cs[0], day);
    }
  }

  /** Each window but the last is a full `chunkDays` days long, and the next
      one starts the day after it ends. */
  lemma {:induction false} ChunksContiguous(start: int, end: int, chunkDays: int, i: int)
    requires chunkDays >= 1
    requires 0 <= i < |Chunks(start, end, chunkDays)| - 1
    ensures Chunks(start, end, chunkDays)[i + 1].first == Chunks(start, end, chunkDays)[i].last + 1
    ensures Chunks(start, end, chunkDays)[i].last - Chunks(start, end, chunkDays)[i].first == chunkDays - 1
    decreases i
  {
    var cs := Chunks(start, end, chunkDays);
    var e := ChunkEnd(start, end, chunkDays);
    var rest := Chunks(e + 1, end, chunkDays);
    assert cs == [Chunk(start, e)] + rest;
    if i > 0 {
      ChunksContiguous(e + 1, end, chunkDays, i - 1);
      assert cs[i] == rest[i - 1] && cs[i + 1] == rest[i];
    } else {
      assert cs[1] == rest[0];
    }
  }

  /** Windows are disjoint and in increasing order. */
  lemma {:induction false} ChunksOrdered(start: int, end: int, chunkDays: int, i: int, j: int)
    requires chunkDays >= 1
    requires 0 <= i < j < |Chunks(start, end, chunkDays)|
    ensures Chunks(start, end, chunkDays)[i].last < Chunks(start, end, chunkDays)[j].first
    decreases j - i
  {
    var cs := Chunks(start, end, chunkDays);
    if j > i + 1 {
      ChunksOrdered(start, end, chunkDays, i, j - 1);
    }
    ChunksContiguous(start, end, chunkDays, j - 1);
  }

  /** The number of windows: the range length divided by the chunk length,
      rounded up. */
  lemma {:induction false} ChunkCount(start: int, end: int, chunkDays: int)
    requires chunkDays >= 1 && start <= end
    ensures (|Chunks(start, end, chunkDays)| - 1) * chunkDays <= end - start
    ensures end - start < |Chunks(start, end, chunkDays)| * chunkDays
    decreases end - start
  {
    var e := ChunkEnd(start, end, chunkDays);
    var n := |Chunks(start, end, chunkDays)|;
    if e < end {
      ChunkCount(e + 1, end, chunkDays);
      var rest := |Chunks(e + 1, end, chunkDays)|;
      assert n == rest + 1;
      assert e + 1 == start + chunkDays;
      assert (n - 1) * chunkDays == rest * chunkDays;
      assert n * chunkDays == rest * chunkDays + chunkDays;
    } else {
      assert n == 1;
    }
  }
}

=== FILE: features.dfy ===
/** Situational classifier: turns raw event rows into labelled plate
    appearances. A row is high leverage when a leverage value is above the
    threshold (only if the frame carries a leverage column) or when the game
    is late and close. Rows without an event label are dropped afterwards. */
module Features {
  import opened Wrappers
  import opened Config
  import opened Records

  /** One raw row. Numeric fields are the values after numeric coercion, so
      `None` means missing or non-numeric. `leverage` holds the numeric
      values of whatever leverage-like columns the row carries, by name. */
  datatype RawRecord = RawRecord(
    batterName: string,
    playerName: string,
    events: Option<string>,
    inning: Option<real>,
    batScore: Option<real>,
    fldScore: Option<real>,
    wobaValue: Option<real>,
    wobaDenom: Option<real>,
    leverage: map<string, Option<real>>)

  /** A raw frame: the set of its column names and its rows. A field whose
      column is absent from `columns` is read as missing. */
  datatype RawFrame = RawFrame(columns: set<string>, rows: seq<RawRecord>)

  /** Leverage column names, in priority order. */
  const LeverageCandidates: seq<string> := ["li", "LI", "leverage_index", "Leverage_Index", "lev_index"]

  /** The position of the first candidate, from position `i` on, that is a
      column; `|cands|` when there is none. */
  function FirstPresentIndex(cands: seq<string>, cols: set<string>, i: nat): (j: nat)
    requires i <= |cands|
    ensures i <= j <= |cands|
    ensures j < |cands| ==> cands[j] in cols
    ensures forall k :: i <= k < j ==> cands[k] !in cols
    decreases |cands| - i
  {
    if i == |cands| || cands[i] in cols then i else FirstPresentIndex(cands, cols, i + 1)
  }

  /** The leverage column a frame uses, chosen once for the whole frame. */
  function LeverageColumn(cols: set<string>): (r: Option<string>)
    ensures r.None? <==> forall j :: 0 <= j < |LeverageCandidates| ==> LeverageCandidates[j] !in cols
    ensures r.Some? ==>
      exists j :: 0 <= j < |LeverageCandidates| && LeverageCandidates[j] == r.value && r.value in cols &&
        forall k :: 0 <= k < j ==> LeverageCandidates[k] !in cols
  {
    var j := FirstPresentIndex(LeverageCandidates, cols, 0);
    if j == |LeverageCandidates| then None else Some(LeverageCandidates[j])
  }

  /** A numeric field; an absent column is filled with missing values. */
  function NumericColumn(cols: set<string>, name: string, v: Option<real>): Option<real> {
    if name in cols then v else None
  }

  function Abs(x: real): real {
    if x < 0.0 then -x else x
  }

  /** `(a - b).abs()` with missing values propagating. */
  function AbsDiff(a: Option<real>, b: Option<real>): Option<real> {
    if a.Some? && b.Some? then Some(Abs(a.value - b.value)) else None
  }

  /** Comparisons against a missing value are false. */
  predicate AtLeast(a: Option<real>, t: real) {
    match a
    case Some(x) => x >= t
    case None => false
  }

  predicate AtMost(a: Option<real>, t: real) {
    match a
    case Some(x) => x <= t
    case None => false
  }

  predicate Above(a: Option<real>, t: real) {
    match a
    case Some(x) => x > t
    case None => false
  }

  /** The value of the chosen leverage column in one row. */
  function LeverageValue(liCol: Option<string>, r: RawRecord): Option<real> {
    match liCol
    case None => None
    case Some(c) => if c in r.leverage then r.leverage[c] else None
  }

  /** The high-leverage rule in plain logic: a present leverage value above
      the threshold, or a present inning at or past the late inning with
      both scores present and within the close margin. */
  predicate HighLeverageRule(cfg: Config, li: Option<real>, inning: Option<real>, bat: Option<real>, fld: Option<real>) {
    || (li.Some? && li.value > cfg.liThreshold)
    || (inning.Some? && bat.Some? && fld.Some? &&
        inning.value >= cfg.lateInning && Abs(bat.value - fld.value) <= cfg.closeRuns)
  }

  /** The late-and-close proxy alone. */
  predicate LateCloseRule(cfg: Config, inning: Option<real>, bat: Option<real>, fld: Option<real>) {
    inning.Some? && bat.Some? && fld.Some? &&
    inning.value >= cfg.lateInning && Abs(bat.value - fld.value) <= cfg.closeRuns
  }

  /** The display name: the batter name column if present, else the player
      name column, else "Unknown". */
  function BatterName(cols: set<string>, r: RawRecord): (name: string)
    ensures "batter_name" in cols ==> name == r.batterName
    ensures "batter_name" !in cols && "player_name" in cols ==> name == r.playerName
    ensures "batter_name" !in cols && "player_name" !in cols ==> name == "Unknown"
  {
    if "batter_name" !in cols then
      if "player_name" in cols then r.playerName else "Unknown"
    else r.batterName
  }

  /** A row after classification, before rows without an event are dropped. */
  datatype AnnotatedRow = AnnotatedRow(
    events: Option<string>,
    batter: string,
    inning: Option<real>,
    batScore: Option<real>,
    fldScore: Option<real>,
    wobaValue: Option<real>,
    wobaDenom: Option<real>,
    leverage: Option<real>,
    isHighLev: bool,
    liUsed: bool)

  /** Classifies one row, given the frame's columns and its leverage column;
      the flag is computed as `prepare_pa_frame` does, with missing values
      making each comparison false. */
  function Annotate(cfg: Config, cols: set<string>, liCol: Option<string>, r: RawRecord): (a: AnnotatedRow)
    requires liCol == LeverageColumn(cols)
    ensures a.isHighLev <==> HighLeverageRule(cfg, a.leverage, a.inning, a.batScore, a.fldScore)
    ensures a.liUsed <==> liCol.Some?
    ensures liCol.None? ==> a.leverage == None && (a.isHighLev <==> LateCloseRule(cfg, a.inning, a.batScore, a.fldScore))
    ensures a.batter == BatterName(cols, r)
    ensures a.events == (if "events" in cols then r.events else None)
    ensures a.inning == NumericColumn(cols, "inning", r.inning)
    ensures a.batScore == NumericColumn(cols, "bat_score", r.batScore)
    ensures a.fldScore == NumericColumn(cols, "fld_score", r.fldScore)
    ensures a.wobaValue == NumericColumn(cols, "woba_value", r.wobaValue)
    ensures a.wobaDenom == NumericColumn(cols, "woba_denom", r.wobaDenom)
    ensures a.leverage == LeverageValue(liCol, r)
  {
    var inning := NumericColumn(cols, "inning", r.inning);
    var bat := NumericColumn(cols, "bat_score", r.batScore);
    var fld := NumericColumn(cols, "fld_score", r.fldScore);
    var lateClose := AtLeast(inning, cfg.lateInning) && AtMost(AbsDiff(bat, fld), cfg.closeRuns);
    var li := LeverageValue(liCol, r);
    var high := if liCol.Some? then Above(li, cfg.liThreshold) || lateClose else lateClose;
    AnnotatedRow(
      if "events" in cols then r.events else None,
      BatterName(cols, r),
      inning, bat, fld,
      NumericColumn(cols, "woba_value", r.wobaValue),
      NumericColumn(cols, "woba_denom", r.wobaDenom),
      li, high, liCol.Some?)
  }

  /** Turns an annotated row that has an event label into a labelled record. */
  function Finish(a: AnnotatedRow): (r: LabeledRecord)
    requires a.events.Some?
    ensures LabelOf(r.event) == a.events.value
  {
    LabeledRecord(a.batter, ParseEvent(a.events.value), a.inning, a.batScore, a.fldScore,
                  a.wobaValue, a.wobaDenom, a.leverage, a.isHighLev, a.liUsed)
  }

  /** Drops the rows without an event label, keeping the order. */
  function DropUnlabelled(rows: seq<AnnotatedRow>): (r: seq<LabeledRecord>)
    ensures |r| <= |rows|
  {
    if rows == [] then []
    else if rows[0].events.None? then DropUnlabelled(rows[1..])
    else [Finish(rows[0])] + DropUnlabelled(rows[1..])
  }

  function AnnotateAll(cfg: Config, cols: set<string>, liCol: Option<string>, rows: seq<RawRecord>): (r: seq<AnnotatedRow>)
    requires liCol == LeverageColumn(cols)
    ensures |r| == |rows|
    ensures forall i :: 0 <= i < |rows| ==> r[i] == Annotate(cfg, cols, liCol, rows[i])
  {
    seq(|rows|, i requires 0 <= i < |rows| => Annotate(cfg, cols, liCol, rows[i]))
  }

  /** pandas' `df.empty`: no rows or no columns. */
  predicate IsEmpty(d: RawFrame) {
    d.rows == [] || d.columns == {}
  }

  /** What the classifier promises of each output record, given whether the
      frame has a leverage column: the flag follows the high-leverage rule on
      the record's own fields, and without a leverage column no leverage value
      is read and the flag is the late-and-close proxy alone. */
  predicate FlagsHold(cfg: Config, used: bool, r: LabeledRecord) {
    && r.liUsed == used
    && (r.isHighLev <==> HighLeverageRule(cfg, r.leverage, r.inning, r.batScore, r.fldScore))
    && (!used ==> r.leverage == None && (r.isHighLev <==> LateCloseRule(cfg, r.inning, r.batScore, r.fldScore)))
  }

  /** The classifier over a whole frame (`None` stands for a missing frame). */
  function Prepare(cfg: Config, df: Option<RawFrame>): (r: seq<LabeledRecord>)
    ensures df.None? ==> r == []
    ensures df.Some? && IsEmpty(df.value) ==> r == []
    ensures df.Some? ==> |r| <= |df.value.rows|
    ensures forall i :: 0 <= i < |r| ==>
      df.Some? && FlagsHold(cfg, LeverageColumn(df.value.columns).Some?, r[i])
  {
    if df.None? || IsEmpty(df.value) then []
    else
      var d := df.value;
      var liCol := LeverageColumn(d.columns);
      var annotated := AnnotateAll(cfg, d.columns, liCol, d.rows);
      FlagsSurviveDrop(cfg, liCol.Some?, annotated);
      DropUnlabelled(annotated)
  }

  /** Every row that survives the drop carries the flags it was annotated with. */
  lemma {:induction false} FlagsSurviveDrop(cfg: Config, used: bool, rows: seq<AnnotatedRow>)
    requires forall i :: 0 <= i < |rows| ==> rows[i].events.Some? ==> FlagsHold(cfg, used, Finish(rows[i]))
    ensures forall i :: 0 <= i < |DropUnlabelled(rows)| ==> FlagsHold(cfg, used, DropUnlabelled(rows)[i])
  {
    if rows != [] {
      var tail := rows[1..];
      assert forall i :: 0 <= i < |tail| ==> tail[i] == rows[i + 1];
      FlagsSurviveDrop(cfg, used, tail);
      var rest := DropUnlabelled(tail);
      var r := DropUnlabelled(rows);
      if rows[0].events.Some? {
        assert r == [Finish(rows[0])] + rest;
        assert forall i :: 1 <= i < |r| ==> r[i] == rest[i - 1];
      } else {
        assert r == rest;
      }
    }
  }

  /** The raw rows that carry an event label, in order. */
  function Labelled(cols: set<string>, rows: seq<RawRecord>): (r: seq<RawRecord>)
    ensures |r| <= |rows|
    ensures forall i :: 0 <= i < |r| ==> r[i] in rows
    ensures "events" !in cols ==> r == []
  {
    if rows == [] then []
    else if "events" in cols && rows[0].events.Some? then [rows[0]] + Labelled(cols, rows[1..])
    else Labelled(cols, rows[1..])
  }

  /** Classifies one labelled row from that row and the frame's column set alone. */
  function Classify(cfg: Config, cols: set<string>, r: RawRecord): (l: LabeledRecord)
    requires "events" in cols && r.events.Some?
    ensures l.batter == BatterName(cols, r)
    ensures LabelOf(l.event) == r.events.value
    ensures l.liUsed <==> LeverageColumn(cols).Some?
    ensures l.leverage == LeverageValue(LeverageColumn(cols), r)
    ensures l.inning == NumericColumn(cols, "inning", r.inning)
    ensures l.batScore == NumericColumn(cols, "bat_score", r.batScore)
    ensures l.fldScore == NumericColumn(cols, "fld_score", r.fldScore)
    ensures l.wobaValue == NumericColumn(cols, "woba_value", r.wobaValue)
    ensures l.wobaDenom == NumericColumn(cols, "woba_denom", r.wobaDenom)
    ensures l.isHighLev <==> HighLeverageRule(cfg, LeverageValue(LeverageColumn(cols), r),
      NumericColumn(cols, "inning", r.inning), NumericColumn(cols, "bat_score", r.batScore), NumericColumn(cols, "fld_score", r.fldScore))
  {
    Finish(Annotate(cfg, cols, LeverageColumn(cols), r))
  }

  /** The output keeps exactly the input rows that carry an event label, in
      order, and each kept row is classified from itself and the column set
      alone: no other row influences its flags. */
  lemma PrepareKeepsLabelledRows(cfg: Config, d: RawFrame)
    requires !IsEmpty(d)
    ensures var out := Prepare(cfg, Some(d));
      var kept := Labelled(d.columns, d.rows);
      && |out| == |kept|
      && forall i :: 0 <= i < |out| ==> "events" in d.columns && kept[i].events.Some? && out[i] == Classify(cfg, d.columns, kept[i])
  {
    var liCol := LeverageColumn(d.columns);
    DropIsPerRow(cfg, d.columns, liCol, d.rows);
  }

  /** Output record `o` is the classification of raw row `k`. */
  predicate ClassifiedFrom(cfg: Config, cols: set<string>, o: LabeledRecord, k: RawRecord) {
    "events" in cols && k.events.Some? && o == Classify(cfg, cols, k)
  }

  /** The outputs are the classifications of the kept rows, position by position. */
  predicate PairwiseClassified(cfg: Config, cols: set<string>, out: seq<LabeledRecord>, kept: seq<RawRecord>) {
    |out| == |kept| && forall i :: 0 <= i < |out| ==> ClassifiedFrom(cfg, cols, out[i], kept[i])
  }

  lemma PairwiseCons(cfg: Config, cols: set<string>, o: LabeledRecord, k: RawRecord,
                     out: seq<LabeledRecord>, kept: seq<RawRecord>)
    requires ClassifiedFrom(cfg, cols, o, k) && PairwiseClassified(cfg, cols, out, kept)
    ensures PairwiseClassified(cfg, cols, [o] + out, [k] + kept)
  {
    var o' := [o] + out;
    var k' := [k] + kept;
    assert forall i :: 1 <= i < |o'| ==> o'[i] == out[i - 1] && k'[i] == kept[i - 1];
  }

  lemma {:induction false} DropIsPerRow(cfg: Config, cols: set<string>, liCol: Option<string>, rows: seq<RawRecord>)
    requires liCol == LeverageColumn(cols)
    ensures PairwiseClassified(cfg, cols, DropUnlabelled(AnnotateAll(cfg, cols, liCol, rows)), Labelled(cols, rows))
  {
    if rows != [] {
      var tail := rows[1..];
      DropIsPerRow(cfg, cols, liCol, tail);
      var all := AnnotateAll(cfg, cols, liCol, rows);
      assert all[1..] == AnnotateAll(cfg, cols, liCol, tail);
      var rest := DropUnlabelled(all[1..]);
      var keptRest := Labelled(cols, tail);
      if "events" in cols && rows[0].events.Some? {
        assert DropUnlabelled(all) == [Finish(all[0])] + rest;
        assert ClassifiedFrom(cfg, cols, Finish(all[0]), rows[0]);
        PairwiseCons(cfg, cols, Finish(all[0]), rows[0], rest, keptRest);
      } else {
        assert all[0].events.None?;
      }
    }
  }

  /** With no leverage column the flag is exactly the late-and-close proxy,
      and the leverage flag is off on every row. */
  lemma NoLeverageColumnMeansProxyOnly(cfg: Config, d: RawFrame)
    requires forall j :: 0 <= j < |LeverageCandidates| ==> LeverageCandidates[j] !in d.columns
    ensures var out := Prepare(cfg, Some(d));
      forall i :: 0 <= i < |out| ==>
        !out[i].liUsed && (out[i].isHighLev <==> LateCloseRule(cfg, out[i].inning, out[i].batScore, out[i].fldScore))
  {
  }

  /** With a leverage column every kept row reports it used, whatever its own
      leverage cell holds. */
  lemma LeverageFlagIsPerFrame(cfg: Config, d: RawFrame, c: string)
    requires c in LeverageCandidates && c in d.columns
    ensures var out := Prepare(cfg, Some(d));
      forall i :: 0 <= i < |out| ==> out[i].liUsed
  {
  }

  /** The first candidate in priority order wins: with "LI" present and "li"
      absent, "LI" is read whatever later candidates are present. */
  lemma FirstCandidateWins(cols: set<string>)
    requires "LI" in cols && "li" !in cols
    ensures LeverageColumn(cols) == Some("LI")
  {
    assert LeverageCandidates[0] == "li";
    assert LeverageCandidates[1] == "LI";
  }

  /** Boundaries under the default configuration: a leverage of exactly 1.5
      does not trigger, 1.51 does; inning 7 with a two-run margin triggers,
      inning 6 or a three-run margin does not. */
  lemma DefaultBoundaries()
    ensures !HighLeverageRule(Default, Some(1.5), None, None, None)
    ensures HighLeverageRule(Default, Some(1.51), None, None, None)
    ensures HighLeverageRule(Default, None, Some(7.0), Some(3.0), Some(5.0))
    ensures !HighLeverageRule(Default, None, Some(6.0), Some(3.0), Some(5.0))
    ensures !HighLeverageRule(Default, Some(1.5), Some(7.0), Some(2.0), Some(5.0))
  {
  }

  /** A missing or non-numeric inning or score switches off the proxy, and a
      missing leverage value switches off the leverage trigger. */
  lemma MissingFieldsNeverTrigger(cfg: Config, inning: Option<real>, bat: Option<real>, fld: Option<real>)
    requires inning.None? || bat.None? || fld.None?
    ensures !HighLeverageRule(cfg, None, inning, bat, fld)
  {
  }
}

=== FILE: metrics.dfy ===
/** Rate statistics engine: per-player wOBA, K% and OPS over a list of
    labelled plate appearances. Each result map is keyed by exactly the
    players that have at least one row. */
module Metrics {
  import opened Wrappers
  import opened Records
  import opened Series

  // ---------------------------------------------------------------------
  // Per-row tallies and their sums over a group of rows

  /** The quantities the statistics count, one per row. */
  datatype Tally =
    | Hits | Walks | HitsByPitch | AtBats | TotalBases | Strikeouts
    | ValuePresent | DenomPresent

  predicate IsHit(e: Event) {
    e.Single? || e.Double? || e.Triple? || e.HomeRun?
  }

  predicate IsWalk(e: Event) {
    e.Walk? || e.IntentWalk?
  }

  /** Outcomes that are not at-bats. */
  predicate IsNonAtBat(e: Event) {
    e.Walk? || e.IntentWalk? || e.HitByPitch? || e.SacFly? || e.SacBunt? || e.CatcherInterf?
  }

  function Bases(e: Event): nat {
    match e
    case Single => 1
    case Double => 2
    case Triple => 3
    case HomeRun => 4
    case _ => 0
  }

  function Indicator(b: bool): nat {
    if b then 1 else 0
  }

  /** The contribution of one row to a tally. */
  function Weight(t: Tally, r: LabeledRecord): nat {
    match t
    case Hits => Indicator(IsHit(r.event))
    case Walks => Indicator(IsWalk(r.event))
    case HitsByPitch => Indicator(r.event.HitByPitch?)
    case AtBats => Indicator(!IsNonAtBat(r.event))
    case TotalBases => Bases(r.event)
    case Strikeouts => Indicator(r.event.Strikeout?)
    case ValuePresent => Indicator(r.wobaValue.Some?)
    case DenomPresent => Indicator(r.wobaDenom.Some?)
  }

  function Count(g: seq<LabeledRecord>, t: Tally): nat {
    if g == [] then 0 else Weight(t, g[0]) + Count(g[1..], t)
  }

  /** The two wOBA columns. */
  datatype WobaColumn = Value | Denom

  function Cell(r: LabeledRecord, c: WobaColumn): Option<real> {
    match c
    case Value => r.wobaValue
    case Denom => r.wobaDenom
  }

  function PresentTally(c: WobaColumn): Tally {
    match c
    case Value => ValuePresent
    case Denom => DenomPresent
  }

  /** The sum of the present cells of a column; missing cells are skipped. */
  function PresentSum(g: seq<LabeledRecord>, c: WobaColumn): real {
    if g == [] then 0.0 else Cell(g[0], c).GetOr(0.0) + PresentSum(g[1..], c)
  }

  /** Addition as a column sum with `min_count=1` performs it: a missing
      operand is skipped, and the sum is missing only if both are. */
  function AddSkipping(a: Option<real>, b: Option<real>): Option<real> {
    match (a, b)
    case (None, None) => None
    case (Some(x), None) => Some(x)
    case (None, Some(y)) => Some(y)
    case (Some(x), Some(y)) => Some(x + y)
  }

  /** `sum(min_count=1)` of one column over a group. */
  function SumMinCount(g: seq<LabeledRecord>, c: WobaColumn): Option<real> {
    if g == [] then None else AddSkipping(Cell(g[0], c), SumMinCount(g[1..], c))
  }

  /** `sum(min_count=1)` is missing exactly when no cell is present, and
      otherwise is the sum of the present cells. */
  lemma {:induction false} SumMinCountIsPresentSum(g: seq<LabeledRecord>, c: WobaColumn)
    ensures SumMinCount(g, c) == if Count(g, PresentTally(c)) == 0 then None else Some(PresentSum(g, c))
    ensures Count(g, PresentTally(c)) == 0 ==> PresentSum(g, c) == 0.0
  {
    if g != [] {
      SumMinCountIsPresentSum(g[1..], c);
    }
  }

  lemma {:induction false} CountAppend(a: seq<LabeledRecord>, b: seq<LabeledRecord>, t: Tally)
    ensures Count(a + b, t) == Count(a, t) + Count(b, t)
  {
    if a != [] {
      assert (a + b)[1..] == a[1..] + b;
      CountAppend(a[1..], b, t);
    } else {
      assert a + b == b;
    }
  }

  lemma {:induction false} PresentSumAppend(a: seq<LabeledRecord>, b: seq<LabeledRecord>, c: WobaColumn)
    ensures PresentSum(a + b, c) == PresentSum(a, c) + PresentSum(b, c)
  {
    if a != [] {
      assert (a + b)[1..] == a[1..] + b;
      PresentSumAppend(a[1..], b, c);
    } else {
      assert a + b == b;
    }
  }

  /** Locates the first row of `a` in its permutation `b`; the remaining
      rows are again permutations of each other. */
  lemma PermutationSplit(a: seq<LabeledRecord>, b: seq<LabeledRecord>) returns (j: nat)
    requires a != [] && multiset(a) == multiset(b)
    ensures j < |b| && b[j] == a[0]
    ensures multiset(a[1..]) == multiset(b[..j] + b[j + 1..])
  {
    var x := a[0];
    assert x in multiset(b);
    var k :| 0 <= k < |b| && b[k] == x;
    j := k;
    assert b == b[..j] + [x] + b[j + 1..];
    assert a == [x] + a[1..];
    assert multiset(a[1..]) == multiset(a) - multiset{x};
    assert multiset(b[..j] + b[j + 1..]) == multiset(b) - multiset{x};
  }

  /** Tallies depend on the multiset of rows only, not on their order. */
  lemma {:induction false} CountPermutation(a: seq<LabeledRecord>, b: seq<LabeledRecord>, t: Tally)
    requires multiset(a) == multiset(b)
    ensures Count(a, t) == Count(b, t)
  {
    if a == [] {
      assert |b| == |multiset(b)| == 0;
    } else {
      var j := PermutationSplit(a, b);
      var x, b' := a[0], b[..j] + b[j + 1..];
      assert b == b[..j] + ([x] + b[j + 1..]);
      assert [x][1..] == [];
      CountPermutation(a[1..], b', t);
      CountAppend(b[..j], [x] + b[j + 1..], t);
      CountAppend([x], b[j + 1..], t);
      CountAppend(b[..j], b[j + 1..], t);
    }
  }

  lemma {:induction false} PresentSumPermutation(a: seq<LabeledRecord>, b: seq<LabeledRecord>, c: WobaColumn)
    requires multiset(a) == multiset(b)
    ensures PresentSum(a, c) == PresentSum(b, c)
  {
    if a == [] {
      assert |b| == |multiset(b)| == 0;
    } else {
      var j := PermutationSplit(a, b);
      var x, b' := a[0], b[..j] + b[j + 1..];
      assert b == b[..j] + ([x] + b[j + 1..]);
      assert [x][1..] == [];
      PresentSumPermutation(a[1..], b', c);
      PresentSumAppend(b[..j], [x] + b[j + 1..], c);
      PresentSumAppend([x], b[j + 1..], c);
      PresentSumAppend(b[..j], b[j + 1..], c);
    }
  }

  // ---------------------------------------------------------------------
  // Per-player statistics over one player's rows

  /** A quotient whose undefined cases (missing operand, zero denominator)
      are filled with 0, as `(num / den.replace(0, nan)).fillna(0)` does. */
  function DivOrZero(num: Option<real>, den: Option<real>): real {
    if num.Some? && den.Some? && den.value != 0.0 then num.value / den.value else 0.0
  }

  /** wOBA of one player's rows. */
  function WobaOf(g: seq<LabeledRecord>): (w: real)
    ensures w == (if PresentSum(g, Denom) == 0.0 then 0.0 else PresentSum(g, Value) / PresentSum(g, Denom))
    ensures Count(g, DenomPresent) == 0 || Count(g, ValuePresent) == 0 ==> w == 0.0
  {
    SumMinCountIsPresentSum(g, Value);
    SumMinCountIsPresentSum(g, Denom);
    DivOrZero(SumMinCount(g, Value), SumMinCount(g, Denom))
  }

  /** K% of one player's rows: the share of rows whose outcome is a strikeout. */
  function KPctOf(g: seq<LabeledRecord>): (k: real)
    ensures 0.0 <= k <= 1.0
    ensures g != [] ==> k == Count(g, Strikeouts) as real / |g| as real
    ensures g == [] ==> k == 0.0
  {
    StrikeoutsAtMostRows(g);
    if |g| == 0 then 0.0 else Count(g, Strikeouts) as real / |g| as real
  }

  lemma {:induction false} StrikeoutsAtMostRows(g: seq<LabeledRecord>)
    ensures Count(g, Strikeouts) <= |g|
  {
    if g != [] {
      StrikeoutsAtMostRows(g[1..]);
    }
  }

  /** Hits and total bases are bounded by at-bats: every hit is an at-bat and
      is worth at most four bases. */
  lemma {:induction false} HitsWithinAtBats(g: seq<LabeledRecord>)
    ensures Count(g, Hits) <= Count(g, AtBats)
    ensures Count(g, TotalBases) <= 4 * Count(g, AtBats)
  {
    if g != [] {
      HitsWithinAtBats(g[1..]);
    }
  }

  /** OBP, missing when its denominator is zero. */
  function Obp(g: seq<LabeledRecord>): Option<real> {
    var onBase := Count(g, Hits) + Count(g, Walks) + Count(g, HitsByPitch);
    var den := Count(g, AtBats) + Count(g, Walks) + Count(g, HitsByPitch);
    if den == 0 then None else Some(onBase as real / den as real)
  }

  /** SLG, missing when there are no at-bats. */
  function Slg(g: seq<LabeledRecord>): Option<real> {
    if Count(g, AtBats) == 0 then None else Some(Count(g, TotalBases) as real / Count(g, AtBats) as real)
  }

  /** OPS of one player's rows: OBP + SLG, with the whole sum filled with 0
      when either part is missing. Without at-bats the result is 0 even when
      OBP exists. */
  function OpsOf(g: seq<LabeledRecord>): (o: real)
    ensures Count(g, AtBats) == 0 ==> o == 0.0
    ensures Count(g, AtBats) > 0 ==>
      var ab := Count(g, AtBats) as real;
      var bb := Count(g, Walks) as real;
      var hbp := Count(g, HitsByPitch) as real;
      o == (Count(g, Hits) as real + bb + hbp) / (ab + bb + hbp) + Count(g, TotalBases) as real / ab
    ensures 0.0 <= o <= 5.0
  {
    HitsWithinAtBats(g);
    var obp := Obp(g);
    var slg := Slg(g);
    if obp.Some? && slg.Some? then
      OpsBounded(Count(g, Hits), Count(g, Walks), Count(g, HitsByPitch), Count(g, AtBats), Count(g, TotalBases));
      obp.value + slg.value
    else 0.0
  }

  /** Arithmetic behind the OPS bounds: OBP is at most 1 and SLG at most 4. */
  lemma OpsBounded(h: nat, bb: nat, hbp: nat, ab: nat, tb: nat)
    requires h <= ab && tb <= 4 * ab && ab > 0
    ensures 0.0 <= (h + bb + hbp) as real / (ab + bb + hbp) as real <= 1.0
    ensures 0.0 <= tb as real / ab as real <= 4.0
  {
    QuotientBounded((h + bb + hbp) as real, (ab + bb + hbp) as real, 1.0);
    QuotientBounded(tb as real, ab as real, 4.0);
  }

  /** A non-negative quotient whose numerator is at most `c` times its
      positive denominator is at most `c`. */
  lemma QuotientBounded(n: real, d: real, c: real)
    requires d > 0.0 && 0.0 <= n <= c * d
    ensures 0.0 <= n / d <= c
  {
    var q := n / d;
    assert q * d == n;
    if q > c {
      assert q * d > c * d;
    }
  }

  // ---------------------------------------------------------------------
  // Grouping by player

  function Players(rs: seq<LabeledRecord>): set<string> {
    set r | r in rs :: r.batter
  }

  /** The rows of one player, in order. */
  function RowsOf(rs: seq<LabeledRecord>, p: string): (g: seq<LabeledRecord>)
    ensures |g| <= |rs|
    ensures forall i :: 0 <= i < |g| ==> g[i].batter == p && g[i] in rs
  {
    if rs == [] then []
    else if rs[0].batter == p then [rs[0]] + RowsOf(rs[1..], p)
    else RowsOf(rs[1..], p)
  }

  /** Per-player wOBA, keyed by the players present. */
  function Woba(rs: seq<LabeledRecord>): (m: map<string, real>)
    ensures m.Keys == Players(rs)
    ensures rs == [] ==> m == map[]
    ensures forall p :: p in m ==> m[p] == WobaOf(RowsOf(rs, p))
  {
    map p | p in Players(rs) :: WobaOf(RowsOf(rs, p))
  }

  /** Per-player K%. */
  function KPct(rs: seq<LabeledRecord>): (m: map<string, real>)
    ensures m.Keys == Players(rs)
    ensures rs == [] ==> m == map[]
    ensures forall p :: p in m ==> m[p] == KPctOf(RowsOf(rs, p))
  {
    map p | p in Players(rs) :: KPctOf(RowsOf(rs, p))
  }

  /** Per-player OPS. */
  function Ops(rs: seq<LabeledRecord>): (m: map<string, real>)
    ensures m.Keys == Players(rs)
    ensures rs == [] ==> m == map[]
    ensures forall p :: p in m ==> m[p] == OpsOf(RowsOf(rs, p))
  {
    map p | p in Players(rs) :: OpsOf(RowsOf(rs, p))
  }

  /** The rows of a concatenation are the rows of each part. */
  lemma {:induction false} RowsOfAppend(a: seq<LabeledRecord>, b: seq<LabeledRecord>, p: string)
    ensures RowsOf(a + b, p) == RowsOf(a, p) + RowsOf(b, p)
  {
    if a == [] {
      assert a + b == b;
    } else {
      assert (a + b)[1..] == a[1..] + b;
      RowsOfAppend(a[1..], b, p);
    }
  }

  lemma {:induction false} RowsOfOtherPlayers(rs: seq<LabeledRecord>, p: string)
    requires forall i :: 0 <= i < |rs| ==> rs[i].batter != p
    ensures RowsOf(rs, p) == []
  {
    if rs != [] {
      RowsOfOtherPlayers(rs[1..], p);
    }
  }

  lemma OtherRowsInvisible(a: seq<LabeledRecord>, b: seq<LabeledRecord>, extra: seq<LabeledRecord>, p: string)
    requires forall i :: 0 <= i < |extra| ==> extra[i].batter != p
    ensures RowsOf(a + extra + b, p) == RowsOf(a + b, p)
  {
    RowsOfAppend(a + extra, b, p);
    RowsOfAppend(a, extra, p);
    RowsOfAppend(a, b, p);
    RowsOfOtherPlayers(extra, p);
  }

  /** A player's statistics depend only on that player's rows: inserting
      rows of other players anywhere changes none of them. */
  lemma OtherPlayersDoNotMatter(a: seq<LabeledRecord>, b: seq<LabeledRecord>, extra: seq<LabeledRecord>, p: string)
    requires forall i :: 0 <= i < |extra| ==> extra[i].batter != p
    requires p in Players(a + b)
    ensures p in Players(a + extra + b)
    ensures Woba(a + extra + b)[p] == Woba(a + b)[p]
    ensures KPct(a + extra + b)[p] == KPct(a + b)[p]
    ensures Ops(a + extra + b)[p] == Ops(a + b)[p]
  {
    var whole := a + extra + b;
    var r :| r in a + b && r.batter == p;
    assert r in whole;
    OtherRowsInvisible(a, b, extra, p);
  }

  /** Selecting one player's rows acts on multiplicities row by row. */
  lemma {:induction false} RowsOfMultiplicity(rs: seq<LabeledRecord>, p: string, x: LabeledRecord)
    ensures multiset(RowsOf(rs, p))[x] == if x.batter == p then multiset(rs)[x] else 0
  {
    if rs != [] {
      RowsOfMultiplicity(rs[1..], p, x);
      assert rs == [rs[0]] + rs[1..];
      assert multiset(rs) == multiset{rs[0]} + multiset(rs[1..]);
    }
  }

  lemma RowsOfPermutation(rs: seq<LabeledRecord>, rs': seq<LabeledRecord>, p: string)
    requires multiset(rs) == multiset(rs')
    ensures multiset(RowsOf(rs, p)) == multiset(RowsOf(rs', p))
  {
    forall x ensures multiset(RowsOf(rs, p))[x] == multiset(RowsOf(rs', p))[x] {
      RowsOfMultiplicity(rs, p, x);
      RowsOfMultiplicity(rs', p, x);
    }
  }

  /** The per-player statistics depend on the multiset of a player's rows only. */
  lemma PlayerStatsIgnoreOrder(g: seq<LabeledRecord>, g': seq<LabeledRecord>)
    requires multiset(g) == multiset(g')
    ensures WobaOf(g) == WobaOf(g')
    ensures KPctOf(g) == KPctOf(g')
    ensures OpsOf(g) == OpsOf(g')
  {
    PresentSumPermutation(g, g', Value);
    PresentSumPermutation(g, g', Denom);
    assert |g| == |multiset(g)| == |g'|;
    CountPermutation(g, g', Strikeouts);
    CountPermutation(g, g', Hits);
    CountPermutation(g, g', Walks);
    CountPermutation(g, g', HitsByPitch);
    CountPermutation(g, g', AtBats);
    CountPermutation(g, g', TotalBases);
  }

  lemma PlayersOfPermutation(rs: seq<LabeledRecord>, rs': seq<LabeledRecord>)
    requires multiset(rs) == multiset(rs')
    ensures Players(rs) == Players(rs')
  {
    forall r ensures r in rs <==> r in rs' {
      assert r in rs <==> r in multiset(rs);
      assert r in rs' <==> r in multiset(rs');
    }
  }

  /** Reordering the input rows changes no statistic of any player. */
  lemma StatsIgnoreRowOrder(rs: seq<LabeledRecord>, rs': seq<LabeledRecord>)
    requires multiset(rs) == multiset(rs')
    ensures Woba(rs) == Woba(rs')
    ensures KPct(rs) == KPct(rs')
    ensures Ops(rs) == Ops(rs')
  {
    PlayersOfPermutation(rs, rs');
    forall p | p in Players(rs)
      ensures Woba(rs)[p] == Woba(rs')[p]
      ensures KPct(rs)[p] == KPct(rs')[p]
      ensures Ops(rs)[p] == Ops(rs')[p]
    {
      RowsOfPermutation(rs, rs', p);
      PlayerStatsIgnoreOrder(RowsOf(rs, p), RowsOf(rs', p));
    }
    SameOnEveryPlayer(Woba(rs), Woba(rs'));
    SameOnEveryPlayer(KPct(rs), KPct(rs'));
    SameOnEveryPlayer(Ops(rs), Ops(rs'));
  }


  /** Every row of a group of walks counts as a walk and none as an at-bat. */
  lemma {:induction false} WalkTallies(g: seq<LabeledRecord>)
    requires forall i :: 0 <= i < |g| ==> IsWalk(g[i].event)
    ensures Count(g, Walks) == |g|
    ensures Count(g, AtBats) == 0 && Count(g, Hits) == 0 && Count(g, HitsByPitch) == 0
  {
    if g != [] {
      WalkTallies(g[1..]);
    }
  }

  lemma DivSelf(n: nat)
    requires n > 0
    ensures n as real / n as real == 1.0
  {
  }

  /** The OPS quirk: a player who only walked has an OBP of 1 but, having no
      at-bats, an OPS of 0. */
  lemma WalksOnlyGiveZeroOps(g: seq<LabeledRecord>)
    requires g != []
    requires forall i :: 0 <= i < |g| ==> IsWalk(g[i].event)
    ensures Obp(g) == Some(1.0)
    ensures Slg(g) == None
    ensures OpsOf(g) == 0.0
  {
    WalkTallies(g);
    DivSelf(|g|);
  }

  /** A lone home run reaches the OPS ceiling of 5. */
  lemma LoneHomeRunOps(r: LabeledRecord)
    requires r.event == HomeRun
    ensures OpsOf([r]) == 5.0
  {
    var g := [r];
    assert g[1..] == [];
    assert Count(g, AtBats) == 1 && Count(g, TotalBases) == 4 && Count(g, Hits) == 1;
    assert Count(g, Walks) == 0 && Count(g, HitsByPitch) == 0;
  }

  /** The event categories agree with the label lists of `ops`: hits,
      walks, non-at-bats and strikeouts are recognised by their labels. */
  lemma CategoriesMatchLabels(s: string)
    ensures IsHit(ParseEvent(s)) <==> s in ["single", "double", "triple", "home_run"]
    ensures IsWalk(ParseEvent(s)) <==> s in ["walk", "intent_walk"]
    ensures ParseEvent(s).HitByPitch? <==> s == "hit_by_pitch"
    ensures IsNonAtBat(ParseEvent(s)) <==>
      s in ["walk", "intent_walk", "hit_by_pitch", "sac_fly", "sac_bunt", "catcher_interf"]
    ensures ParseEvent(s).Strikeout? <==> s == "strikeout"
    ensures Bases(ParseEvent(s)) ==
      if s == "single" then 1 else if s == "double" then 2 else if s == "triple" then 3
      else if s == "home_run" then 4 else 0
  {
  }
}

=== FILE: pipeline.dfy ===
/** How the leaderboard run wires the pieces together: classify the rows,
    take the high-leverage subset, compute each rate statistic on both row
    sets, and blend the standardised deltas into the clutch factor. */
module Pipeline {
  import opened Wrappers
  import opened Config
  import opened Records
  import opened Features
  import opened Metrics
  import opened Series
  import opened ClutchScore

  /** The high-leverage rows, in order. */
  function HighLeverageRows(rs: seq<LabeledRecord>): (h: seq<LabeledRecord>)
    ensures |h| <= |rs|
    ensures forall r :: r in h <==> r in rs && r.isHighLev
  {
    if rs == [] then []
    else if rs[0].isHighLev then [rs[0]] + HighLeverageRows(rs[1..])
    else HighLeverageRows(rs[1..])
  }

  /** The subset keeps every copy of every flagged row and nothing else. */
  lemma {:induction false} HighLeverageMultiplicity(rs: seq<LabeledRecord>, x: LabeledRecord)
    ensures multiset(HighLeverageRows(rs))[x] == if x.isHighLev then multiset(rs)[x] else 0
  {
    if rs != [] {
      HighLeverageMultiplicity(rs[1..], x);
      assert rs == [rs[0]] + rs[1..];
    }
  }

  /** Every player with a high-leverage row also has a row overall. */
  lemma HighPlayersAmongAll(rs: seq<LabeledRecord>)
    ensures Players(HighLeverageRows(rs)) <= Players(rs)
  {
  }

  /** The three deltas of a run. */
  function RunDeltas(rs: seq<LabeledRecord>): Deltas {
    var high := HighLeverageRows(rs);
    DeltasOf(Woba(rs), Woba(high), Ops(rs), Ops(high), KPct(rs), KPct(high))
  }

  /** In a run, all three delta series cover exactly the players with a row. */
  lemma RunDeltasAligned(rs: seq<LabeledRecord>)
    ensures RunDeltas(rs).woba.Keys == Players(rs)
    ensures RunDeltas(rs).ops.Keys == Players(rs)
    ensures RunDeltas(rs).k.Keys == Players(rs)
  {
    HighPlayersAmongAll(rs);
  }

  /** So every player of a run gets a clutch factor, and no one else does. */
  lemma EveryPlayerScored(rs: seq<LabeledRecord>, sdWoba: real, sdOps: real, sdK: real)
    requires SdsFit(RunDeltas(rs), sdWoba, sdOps, sdK)
    ensures ClutchFactor(Default.weights, RunDeltas(rs), sdWoba, sdOps, sdK).Keys == Players(rs)
    ensures forall p :: p in Players(rs) ==> ClutchFactor(Default.weights, RunDeltas(rs), sdWoba, sdOps, sdK)[p].Some?
  {
    RunDeltasAligned(rs);
    AlignedDeltasAllScored(Default.weights, RunDeltas(rs), sdWoba, sdOps, sdK);
  }

  /** A missing or empty input gives empty statistics and an empty score. */
  lemma EmptyInputEmptyOutput(cfg: Config, df: Option<RawFrame>, sdWoba: real, sdOps: real, sdK: real)
    requires df.None? || IsEmpty(df.value)
    requires SdsFit(RunDeltas(Prepare(cfg, df)), sdWoba, sdOps, sdK)
    ensures Prepare(cfg, df) == []
    ensures Woba([]) == map[] && Ops([]) == map[] && KPct([]) == map[]
    ensures ClutchFactor(cfg.weights, RunDeltas(Prepare(cfg, df)), sdWoba, sdOps, sdK) == map[]
  {
  }

  // ---------------------------------------------------------------------
  // A worked example: one batter, a late close home run and an early
  // strikeout, in a frame without a leverage column.

  const ScenarioColumns: set<string> :=
    {"events", "batter_name", "inning", "bat_score", "fld_score", "woba_value", "woba_denom"}

  const ScenarioHomeRun: RawRecord :=
    RawRecord("A", "A", Some("home_run"), Some(8.0), Some(3.0), Some(2.0), Some(2.0), Some(1.0), map[])

  const ScenarioStrikeout: RawRecord :=
    RawRecord("A", "A", Some("strikeout"), Some(2.0), Some(0.0), Some(0.0), Some(0.0), Some(1.0), map[])

  /** The two scenario rows after classification. */
  function ScenarioRows(): seq<LabeledRecord> {
    [Classify(Default, ScenarioColumns, ScenarioHomeRun), Classify(Default, ScenarioColumns, ScenarioStrikeout)]
  }

  /** The home run (inning 8, margin 1) is high leverage and the strikeout
      (inning 2) is not; both keep their wOBA cells. */
  lemma ScenarioClassified()
    ensures |ScenarioRows()| == 2
    ensures ScenarioRows()[0].event == HomeRun && ScenarioRows()[0].isHighLev
    ensures ScenarioRows()[1].event == Strikeout && !ScenarioRows()[1].isHighLev
    ensures ScenarioRows()[0].wobaValue == Some(2.0) && ScenarioRows()[0].wobaDenom == Some(1.0)
    ensures ScenarioRows()[1].wobaValue == Some(0.0) && ScenarioRows()[1].wobaDenom == Some(1.0)
  {
    assert LeverageColumn(ScenarioColumns) == None by {
      assert forall j :: 0 <= j < |LeverageCandidates| ==> LeverageCandidates[j] !in ScenarioColumns;
    }
  }

  /** A lone home run: OPS 1 + 4 = 5, K% 0, and, with a unit denominator,
      wOBA equal to its own weight. */
  lemma HomeRunAloneStatistics(r: LabeledRecord)
    requires r.event == HomeRun && r.wobaValue.Some? && r.wobaDenom == Some(1.0)
    ensures OpsOf([r]) == 5.0 && KPctOf([r]) == 0.0 && WobaOf([r]) == r.wobaValue.value
  {
    assert [r][1..] == [];
    assert !IsNonAtBat(r.event) && IsHit(r.event) && Bases(r.event) == 4;
    assert Count([r], AtBats) == 1;
    assert Count([r], Hits) == 1;
    assert Count([r], TotalBases) == 4;
    assert Count([r], Walks) == 0 && Count([r], HitsByPitch) == 0 && Count([r], Strikeouts) == 0;
    assert PresentSum([r], Value) == r.wobaValue.value;
    assert PresentSum([r], Denom) == 1.0;
  }

  /** A home run and a strikeout: OPS 1/2 + 4/2 = 2.5, K% 1/2, and, with unit
      denominators, wOBA the average of the two weights. */
  lemma HomeRunAndStrikeoutStatistics(r1: LabeledRecord, r2: LabeledRecord)
    requires r1.event == HomeRun && r1.wobaValue.Some? && r1.wobaDenom == Some(1.0)
    requires r2.event == Strikeout && r2.wobaValue.Some? && r2.wobaDenom == Some(1.0)
    ensures OpsOf([r1, r2]) == 2.5 && KPctOf([r1, r2]) == 0.5
    ensures WobaOf([r1, r2]) == (r1.wobaValue.value + r2.wobaValue.value) / 2.0
  {
    var rs := [r1, r2];
    assert rs[1..] == [r2] && [r2][1..] == [];
    assert !IsNonAtBat(r2.event) && !IsHit(r2.event) && !IsWalk(r2.event) && Bases(r2.event) == 0;
    assert Count([r2], AtBats) == 1;
    assert Count([r2], Hits) == 0;
    assert Count([r2], TotalBases) == 0;
    assert Count([r2], Walks) == 0;
    assert Count([r2], HitsByPitch) == 0;
    assert Count([r2], Strikeouts) == 1;
    assert Count(rs, AtBats) == 2 && Count(rs, Hits) == 1 && Count(rs, TotalBases) == 4;
    assert Count(rs, Walks) == 0 && Count(rs, HitsByPitch) == 0 && Count(rs, Strikeouts) == 1;
    assert PresentSum([r2], Value) == r2.wobaValue.value;
    assert PresentSum([r2], Denom) == 1.0;
    assert PresentSum(rs, Value) == r1.wobaValue.value + r2.wobaValue.value;
    assert PresentSum(rs, Denom) == 2.0;
  }

  /** The scenario as a frame: the two raw rows, both labelled. */
  const ScenarioFrame: RawFrame := RawFrame(ScenarioColumns, [ScenarioHomeRun, ScenarioStrikeout])

  /** Preparing the scenario frame yields exactly the two classified rows, in order. */
  lemma ScenarioPrepared()
    ensures Prepare(Default, Some(ScenarioFrame)) == ScenarioRows()
  {
    var d := ScenarioFrame;
    PrepareKeepsLabelledRows(Default, d);
    assert d.rows[1..] == [ScenarioStrikeout];
    assert [ScenarioStrikeout][1..] == [];
    assert Labelled(d.columns, d.rows) == [ScenarioHomeRun, ScenarioStrikeout];
  }

  /** The scenario's rate statistics: the high-leverage subset is the home
      run alone, and every statistic is higher (K% lower) there than overall. */
  lemma ScenarioStatistics()
    ensures var rs := ScenarioRows();
      var high := HighLeverageRows(rs);
      && high == [rs[0]]
      && OpsOf(high) == 5.0 && OpsOf(rs) == 2.5
      && KPctOf(high) == 0.0 && KPctOf(rs) == 0.5
      && WobaOf(high) == 2.0 && WobaOf(rs) == 1.0
  {
    ScenarioClassified();
    var rs := ScenarioRows();
    assert rs == [rs[0], rs[1]];
    assert rs[1..] == [rs[1]] && [rs[1]][1..] == [];
    assert HighLeverageRows(rs) == [rs[0]];
    HomeRunAloneStatistics(rs[0]);
    HomeRunAndStrikeoutStatistics(rs[0], rs[1]);
  }

  /** The scenario's only batter is "A". */
  lemma ScenarioPlayers()
    ensures Players(ScenarioRows()) == {"A"}
  {
    ScenarioClassified();
    var rs := ScenarioRows();
    assert rs == [rs[0], rs[1]];
    assert rs[0].batter == "A" && rs[1].batter == "A";
  }

  /** A one-key series has standard deviation 0. */
  lemma SingletonSdZero(m: Series, p: string)
    requires m.Keys == {p}
    ensures IsPopulationSd(m, 0.0)
  {
    assert |m.Keys| == 1;
    SinglePlayerVarianceZero(m);
  }

  /** A run with one batter: every delta series is a single value, its
      standard deviation is 0, and the batter scores exactly 0. */
  lemma SingleBatterRunScoresZero(rs: seq<LabeledRecord>, p: string)
    requires Players(rs) == {p}
    ensures SdsFit(RunDeltas(rs), 0.0, 0.0, 0.0)
    ensures ClutchFactor(Default.weights, RunDeltas(rs), 0.0, 0.0, 0.0) == map[p := Some(0.0)]
  {
    var d := RunDeltas(rs);
    RunDeltasAligned(rs);
    SingletonSdZero(d.woba, p);
    SingletonSdZero(d.ops, p);
    SingletonSdZero(Negate(d.k), p);
    assert SdsFit(d, 0.0, 0.0, 0.0);
    SinglePlayerScoresZero(Default.weights, d, 0.0, 0.0, 0.0, p);
  }

  /** The scenario's clutch factor: its one batter scores 0. */
  lemma ScenarioScores()
    ensures SdsFit(RunDeltas(ScenarioRows()), 0.0, 0.0, 0.0)
    ensures ClutchFactor(Default.weights, RunDeltas(ScenarioRows()), 0.0, 0.0, 0.0) == map["A" := Some(0.0)]
  {
    ScenarioPlayers();
    SingleBatterRunScoresZero(ScenarioRows(), "A");
  }
}

=== FILE: records.dfy ===
/** The plate-appearance outcome vocabulary and the labelled record that the
    situational classifier produces and the rate statistics consume. */
module Records {
  import opened Wrappers

  /** Outcome categories. Every label outside the named vocabulary (field
      outs, double plays, ...) is kept verbatim in `Other`. */
  datatype Event =
    | Single | Double | Triple | HomeRun
    | Walk | IntentWalk | HitByPitch | Strikeout
    | SacFly | SacBunt | CatcherInterf
    | Other(name: string)

  /** The event label as it appears in the `events` column. */
  function LabelOf(e: Event): string {
    match e
    case Single => "single"
    case Double => "double"
    case Triple => "triple"
    case HomeRun => "home_run"
    case Walk => "walk"
    case IntentWalk => "intent_walk"
    case HitByPitch => "hit_by_pitch"
    case Strikeout => "strikeout"
    case SacFly => "sac_fly"
    case SacBunt => "sac_bunt"
    case CatcherInterf => "catcher_interf"
    case Other(s) => s
  }

  predicate InVocabulary(s: string) {
    s in {"single", "double", "triple", "home_run", "walk", "intent_walk",
          "hit_by_pitch", "strikeout", "sac_fly", "sac_bunt", "catcher_interf"}
  }

  /** An event is well formed when an `Other` name is not one of the named ones. */
  predicate WellFormed(e: Event) {
    e.Other? ==> !InVocabulary(e.name)
  }

  /** Reads an event label. The round trip back to the label is exact, so
      comparing parsed events is comparing the label strings CLUTCH's
      statistics compare. */
  function ParseEvent(s: string): (e: Event)
    ensures LabelOf(e) == s
    ensures WellFormed(e)
    ensures e.Other? <==> !InVocabulary(s)
  {
    if s == "single" then Single
    else if s == "double" then Double
    else if s == "triple" then Triple
    else if s == "home_run" then HomeRun
    else if s == "walk" then Walk
    else if s == "intent_walk" then IntentWalk
    else if s == "hit_by_pitch" then HitByPitch
    else if s == "strikeout" then Strikeout
    else if s == "sac_fly" then SacFly
    else if s == "sac_bunt" then SacBunt
    else if s == "catcher_interf" then CatcherInterf
    else Other(s)
  }

  /** The other round trip: a well-formed event survives printing and parsing. */
  lemma ParseLabelOf(e: Event)
    requires WellFormed(e)
    ensures ParseEvent(LabelOf(e)) == e
  {
  }

  /** A plate appearance after classification: display name, outcome, the
      numeric fields after coercion (`None` = missing or non-numeric), the
      leverage value read from the chosen leverage column (`None` when there
      is no such column), and the two flags. */
  datatype LabeledRecord = LabeledRecord(
    batter: string,
    event: Event,
    inning: Option<real>,
    batScore: Option<real>,
    fldScore: Option<real>,
    wobaValue: Option<real>,
    wobaDenom: Option<real>,
    leverage: Option<real>,
    isHighLev: bool,
    liUsed: bool)
}

=== FILE: series.dfy ===
/** Player-indexed series of reals and their population statistics: sum,
    mean and population variance (divisor n, not n - 1). A series is a map,
    so nothing here depends on the order of the players. */
module Series {

  type Series = map<string, real>

  /** Two series on the same players that agree on every player are equal. */
  lemma SameOnEveryPlayer(m: Series, m': Series)
    requires m.Keys == m'.Keys
    requires forall p :: p in m ==> m[p] == m'[p]
    ensures m == m'
  {
  }

  /** Some element of a non-empty set of keys; the sum below does not depend
      on which one. */
  ghost function Pick(ks: set<string>): string
    requires ks != {}
  {
    var k :| k in ks; k
  }

  /** The sum of the values at the keys `ks`. */
  ghost function SumOver(m: Series, ks: set<string>): real
    requires ks <= m.Keys
    decreases ks
  {
    if ks == {} then 0.0
    else var k := Pick(ks); m[k] + SumOver(m, ks - {k})
  }

  ghost function Sum(m: Series): real {
    SumOver(m, m.Keys)
  }

  /** Population mean; 0 for an empty series. */
  ghost function Mean(m: Series): real {
    if |m| == 0 then 0.0 else Sum(m) / |m| as real
  }

  function Square(x: real): real {
    x * x
  }

  /** Squared deviations from a centre `mu` (the mean, in `Variance`). */
  function SquaredDeviations(m: Series, mu: real): (d: Series)
    ensures d.Keys == m.Keys
    ensures forall k :: k in d ==> d[k] == Square(m[k] - mu)
  {
    map k | k in m :: Square(m[k] - mu)
  }

  /** Population variance (`ddof=0`); 0 for an empty series. */
  ghost function Variance(m: Series): real {
    if |m| == 0 then 0.0 else Sum(SquaredDeviations(m, Mean(m))) / |m| as real
  }

  /** `r` has the keys of `m` and every value mapped through `x |-> a * x + b`. */
  predicate IsAffineImage(m: Series, r: Series, a: real, b: real) {
    r.Keys == m.Keys && forall k :: k in m ==> AffineAt(m[k], r[k], a, b)
  }

  function Affine(m: Series, a: real, b: real): (r: Series)
    ensures r.Keys == m.Keys
    ensures forall k :: k in r ==> r[k] == a * m[k] + b
    ensures IsAffineImage(m, r, a, b)
  {
    map k | k in m :: a * m[k] + b
  }

  function Negate(m: Series): (r: Series)
    ensures r.Keys == m.Keys
    ensures forall k :: k in r ==> r[k] == -m[k]
    ensures IsAffineImage(m, r, -1.0, 0.0)
  {
    map k | k in m :: -m[k]
  }

  function Shift(m: Series, c: real): (r: Series)
    ensures r.Keys == m.Keys
    ensures forall k :: k in r ==> r[k] == m[k] + c
    ensures IsAffineImage(m, r, 1.0, c)
  {
    map k | k in m :: m[k] + c
  }

  // ---------------------------------------------------------------------
  // Scalar arithmetic, kept apart so that each step has a small context

  lemma SquareNonNegative(x: real)
    ensures Square(x) >= 0.0
  {
  }

  lemma NegatedSquare(x: real)
    ensures Square(-x) == Square(x)
  {
  }

  predicate Positive(x: real) {
    x > 0.0
  }

  lemma ProductPositive(x: real, z: real)
    requires Positive(x) && Positive(z)
    ensures Positive(x * z)
  {
  }

  /** Only 0 squares to 0. */
  lemma SquarePositive(y: real)
    requires y != 0.0
    ensures Positive(Square(y))
  {
    if y > 0.0 {
      ProductPositive(y, y);
    } else {
      var z := -y;
      ProductPositive(z, z);
      assert Positive(Square(z));
      NegatedSquare(y);
    }
  }

  lemma ZeroQuotient(s: real, n: nat)
    requires n > 0 && s / n as real == 0.0
    ensures s == 0.0
  {
  }

  lemma ScaledSquare(a: real, x: real)
    ensures Square(a * x) == Square(a) * Square(x)
  {
  }

  /** The squared deviation of an affinely mapped value from the mapped centre. */
  lemma DeviationScales(a: real, b: real, x: real, mu: real, y: real, nu: real)
    requires AffineAt(x, y, a, b) && AffineAt(mu, nu, a, b)
    ensures AffineAt(Square(x - mu), Square(y - nu), Square(a), 0.0)
  {
    assert y - nu == a * (x - mu);
    ScaledSquare(a, x - mu);
  }

  /** `y == a * x + b`, kept behind a name so that facts pass between lemmas
      without the solver re-deriving products. */
  predicate AffineAt(x: real, y: real, a: real, b: real) {
    y == a * x + b
  }

  /** `s'` is what summing `n` affinely mapped values gives from their sum `s`. */
  predicate AffineTotal(s: real, s': real, n: nat, a: real, b: real) {
    s' == a * s + b * n as real
  }

  lemma AffineSumStep(x: real, y: real, s: real, s': real, n: nat, a: real, b: real)
    requires AffineAt(x, y, a, b) && AffineTotal(s, s', n, a, b)
    ensures AffineTotal(x + s, y + s', n + 1, a, b)
  {
  }

  lemma AffineQuotient(s: real, s': real, n: nat, a: real, b: real)
    requires n != 0 && AffineTotal(s, s', n, a, b)
    ensures s' / n as real == a * (s / n as real) + b
  {
  }

  lemma ScaledQuotient(s: real, s': real, n: nat, c: real)
    requires n != 0 && AffineTotal(s, s', n, c, 0.0)
    ensures AffineAt(s / n as real, s' / n as real, c, 0.0)
  {
  }

  // ---------------------------------------------------------------------
  // Sums and means of affine images

  /** Sums are linear: mapping every value through `x |-> a * x + b` maps the
      sum over `ks` to `a * sum + b * |ks|`. */
  lemma {:induction false} SumOverAffine(m: Series, r: Series, ks: set<string>, a: real, b: real)
    requires ks <= m.Keys && IsAffineImage(m, r, a, b)
    ensures AffineTotal(SumOver(m, ks), SumOver(r, ks), |ks|, a, b)
    decreases ks
  {
    if ks != {} {
      var k := Pick(ks);
      var rest := ks - {k};
      SumOverAffine(m, r, rest, a, b);
      AffineSumStep(m[k], r[k], SumOver(m, rest), SumOver(r, rest), |rest|, a, b);
      assert |ks| == |rest| + 1;
      assert SumOver(m, ks) == m[k] + SumOver(m, rest);
      assert SumOver(r, ks) == r[k] + SumOver(r, rest);
    }
  }

  lemma SumAffine(m: Series, r: Series, a: real, b: real)
    requires IsAffineImage(m, r, a, b)
    ensures AffineTotal(Sum(m), Sum(r), |m|, a, b)
  {
    SumOverAffine(m, r, m.Keys, a, b);
    assert |m.Keys| == |m|;
  }

  /** The mean of an affine image is the affine image of the mean. */
  lemma MeanAffine(m: Series, r: Series, a: real, b: real)
    requires IsAffineImage(m, r, a, b) && |m| > 0
    ensures AffineAt(Mean(m), Mean(r), a, b)
  {
    SumAffine(m, r, a, b);
    assert |r| == |m|;
    AffineQuotient(Sum(m), Sum(r), |m|, a, b);
  }

  lemma MeanNegate(m: Series)
    ensures Mean(Negate(m)) == -Mean(m)
  {
    if |m| > 0 {
      MeanAffine(m, Negate(m), -1.0, 0.0);
    }
  }

  lemma MeanShift(m: Series, c: real)
    ensures |m| > 0 ==> Mean(Shift(m, c)) == Mean(m) + c
  {
    if |m| > 0 {
      MeanAffine(m, Shift(m, c), 1.0, c);
    }
  }

  /** A sum of non-negative values is non-negative, and it is zero only if
      every value is. */
  lemma {:induction false} SumOverNonNegative(m: Series, ks: set<string>)
    requires ks <= m.Keys
    requires forall k :: k in ks ==> m[k] >= 0.0
    ensures SumOver(m, ks) >= 0.0
    ensures SumOver(m, ks) == 0.0 ==> forall k :: k in ks ==> m[k] == 0.0
    decreases ks
  {
    if ks != {} {
      var k := Pick(ks);
      SumOverNonNegative(m, ks - {k});
    }
  }

  // ---------------------------------------------------------------------
  // Variance

  /** The variance of an affine image scales with the square of the slope
      and ignores the offset. */
  lemma VarianceAffine(m: Series, r: Series, a: real, b: real)
    requires IsAffineImage(m, r, a, b)
    ensures Variance(r) == Square(a) * Variance(m)
  {
    if |m| > 0 {
      MeanAffine(m, r, a, b);
      DeviationsAffine(m, r, a, b, Mean(m), Mean(r));
      SumAffine(SquaredDeviations(m, Mean(m)), SquaredDeviations(r, Mean(r)), Square(a), 0.0);
      VarianceFromSums(m, r, Square(a));
    }
  }

  /** Squared deviations of an affine image, about the image of the centre,
      are the original ones scaled by `a` squared. */
  lemma DeviationsAffine(m: Series, r: Series, a: real, b: real, mu: real, nu: real)
    requires IsAffineImage(m, r, a, b) && AffineAt(mu, nu, a, b)
    ensures IsAffineImage(SquaredDeviations(m, mu), SquaredDeviations(r, nu), Square(a), 0.0)
  {
    var dm, dr := SquaredDeviations(m, mu), SquaredDeviations(r, nu);
    forall k | k in dm ensures AffineAt(dm[k], dr[k], Square(a), 0.0) {
      DeviationScales(a, b, m[k], mu, r[k], nu);
    }
  }

  lemma VarianceFromSums(m: Series, r: Series, c: real)
    requires r.Keys == m.Keys && |m| > 0
    requires AffineTotal(Sum(SquaredDeviations(m, Mean(m))), Sum(SquaredDeviations(r, Mean(r))), |m|, c, 0.0)
    ensures AffineAt(Variance(m), Variance(r), c, 0.0)
  {
    assert |r| == |m|;
    var s, s' := Sum(SquaredDeviations(m, Mean(m))), Sum(SquaredDeviations(r, Mean(r)));
    ScaledQuotient(s, s', |m|, c);
    assert Variance(m) == s / |m| as real;
    assert Variance(r) == s' / |m| as real;
  }

  /** Negating a series leaves its variance unchanged. */
  lemma VarianceNegate(m: Series)
    ensures Variance(Negate(m)) == Variance(m)
  {
    var r := Negate(m);
    if |m| > 0 {
      MeanNegate(m);
      forall k | k in m ensures SquaredDeviations(r, Mean(r))[k] == SquaredDeviations(m, Mean(m))[k] {
        NegatedSquare(m[k] - Mean(m));
      }
      assert SquaredDeviations(r, Mean(r)) == SquaredDeviations(m, Mean(m));
    }
  }

  /** Adding a constant to every value leaves the variance unchanged. */
  lemma VarianceShift(m: Series, c: real)
    ensures Variance(Shift(m, c)) == Variance(m)
  {
    var r := Shift(m, c);
    if |m| > 0 {
      MeanShift(m, c);
      assert SquaredDeviations(r, Mean(r)) == SquaredDeviations(m, Mean(m));
    }
  }

  /** The variance is never negative. */
  lemma VarianceNonNegative(m: Series)
    ensures Variance(m) >= 0.0
  {
    if |m| > 0 {
      var d := SquaredDeviations(m, Mean(m));
      forall k | k in m ensures d[k] >= 0.0 {
        SquareNonNegative(m[k] - Mean(m));
      }
      SumOverNonNegative(d, m.Keys);
    }
  }

  /** A non-empty series has variance 0 exactly when all its values are equal. */
  lemma VarianceZeroIffConstant(m: Series)
    requires |m| > 0
    ensures Variance(m) == 0.0 <==> forall j, k :: j in m && k in m ==> m[j] == m[k]
  {
    if Variance(m) == 0.0 {
      ZeroVarianceIsConstant(m);
    }
    if forall j, k :: j in m && k in m ==> m[j] == m[k] {
      ConstantHasZeroVariance(m);
    }
  }

  lemma ZeroVarianceIsConstant(m: Series)
    requires |m| > 0 && Variance(m) == 0.0
    ensures forall j, k :: j in m && k in m ==> m[j] == m[k]
  {
    var mu := Mean(m);
    var d := SquaredDeviations(m, mu);
    forall k | k in m ensures d[k] >= 0.0 {
      SquareNonNegative(m[k] - mu);
    }
    ZeroQuotient(Sum(d), |m|);
    SumOverNonNegative(d, m.Keys);
    forall k | k in m ensures m[k] == mu {
      if m[k] != mu {
        SquarePositive(m[k] - mu);
      }
    }
  }

  /** A non-empty series whose values are all equal has variance 0. */
  lemma ConstantHasZeroVariance(m: Series)
    requires |m| > 0
    requires forall j, k :: j in m && k in m ==> m[j] == m[k]
    ensures Variance(m) == 0.0
  {
    var k0 :| k0 in m;
    var c := m[k0];
    assert IsAffineImage(m, m, 0.0, c);
    MeanAffine(m, m, 0.0, c);
    assert Mean(m) == c;
    var d := SquaredDeviations(m, c);
    assert IsAffineImage(m, d, 0.0, 0.0);
    SumAffine(m, d, 0.0, 0.0);
    assert Sum(d) == 0.0;
  }

  /** A series with a single player has variance 0. */
  lemma SinglePlayerVarianceZero(m: Series)
    requires |m| == 1
    ensures Variance(m) == 0.0
  {
    var k :| k in m;
    assert |m.Keys - {k}| == 0;
    ConstantHasZeroVariance(m);
  }
}

=== FILE: wrappers.dfy ===
/** Optional values. `None` stands for a missing cell: pandas' NaN after a
    numeric coercion, or an absent event label. */
module Wrappers {

  datatype Option<+T> = None | Some(value: T) {

    /** Returns the value held in `Some`, or `default` for `None`
        (the effect of `fillna(default)` on one cell). */
    function GetOr(default: T): T {
      match this
      case Some(v) => v
      case None => default
    }
  }
}
